=== FILE: README.md ===
# Action log closure workflow and delegation authority — a Dafny model

This project models the core of the action-log backend: tickets ("action
logs") that staff are assigned to, ask to close, and that the management chain
then approves or rejects. The Dafny files cover five things:

- the **closure-approval workflow** of `ActionLogViewSet`:
  - the closure request and the reassignment inside `update`;
  - `approve` with its stage gate and the Ag. C/PAP short cut;
  - `reject`;
  - both fallback paths;
- the **comment board**:
  - the `comments` POST action and `ActionLogCommentViewSet.perform_create`, with their notification fan-out;
  - `mark_comments_viewed`;
- the **ticket records**:
  - the `ActionLog` model's defaults, `can_approve`, `approve` and `reject`;
  - the assignment history;
  - the serializers' validation, creation and rendering rules;
- the **users app**:
  - roles and users, `User.save` and the phone validator;
  - the permission classes and `can_approve_action_log`;
  - the user serializer and the user views;
- the **delegation lifecycle**:
  - the three expiry hooks (pre-save, post-init, login);
  - the `revoke_expired_delegations` management command.

## How it is modelled

**Requests are functions from loaded records to a response.**

- A ticket is a record (`ActionLogModels.ActionLog`) that holds several things:
  - its assignees as user records;
  - its assignment history (`Assignment`, the assigner record and the time);
  - its comments.
- Each workflow request is a function. It takes the ticket as loaded, the acting user, the delegation table and the request data. It returns the response together with the ticket as saved.
- `ActionLogViews.Outcome` has five responses: 404, 403 (with the ticket's stage), 400, 500, and 200 with the saved ticket.
- Each ticket action is split in two. `ApproveView`, `RejectView` and `UpdateView` run `get_object` first (`GetObject`): 500 when it raises, 404 for a ticket outside the actor's queryset (`InQueryset`). `Approve`, `Reject` and `Update` are the action once the ticket is found.
- `UpdateOutcome` separates the failures:
  - 404 before anything is done;
  - a crash before anything is saved;
  - a crash in the assignment text messages after the closure and reassignment steps were saved;
  - a validation error after the closure and reassignment steps were already saved;
  - a failure after the ticket was saved, when the comment row cannot be written.

**State that the code changes row by row is a class.**

- The delegation table (`Delegations.DelegationTable`) and the comment and notification tables (`CommentFanout.CommentBoard`) are classes.
- Their `seq` fields are updated by methods with loops.
- Each method is proved against a specification function:
  - `DeactivateWhere`/`CountWhere` for the bulk updates;
  - `PostRecipients`/`CreateRecipients` for the notification fan-out;
  - `MarkViewed` for marking comments viewed;
  - `Root` for walking up a reply chain.
- Lemmas state the properties of those functions. Examples: a second sweep finds nothing; marking is idempotent; exactly who is notified.

**Inputs stand in for what the model does not compute.**

- The time is an integer `now`.
- The Delegation model's `is_expired` property is a function parameter.
- Three User helpers are fields of the user record:
  - `can_approve_action_logs`;
  - `has_ag_acpap_designation`;
  - `has_leave_delegation_responsibilities`.
- A missing role is `None`. Reading `role.name` on it raises an attribute error. The model gives that as a 500 wherever the code reads it:
  - `get_queryset`, so every ticket action that calls `get_object`;
  - the permission classes (`Permissions.Decision.Crash`);
  - the original assigner's role in `update`, `approve` and `reject`;
  - the permission test of the two comment actions.
- The subquery of `get_queryset` that finds the unit of a ticket's first assignee is an input, `firstAssigneeUnit`. The assignment records hold user ids, not units.
- Whether some other ticket is pending unit-head approval for the actor's unit is an input, `othersPending`. It decides, together with the requested ticket, whether `get_queryset`'s `unit_head_logs` is empty.

Where the code and the intended behaviour disagree, the model follows the code:

- **Reject gate.** Only two kinds of actor may reject, at every stage (`backend/action_logs/views.py:692-733`, `:782-823`):
  - an Ag. C/PAP whose first active received delegation is not for leave;
  - an Ag. AC/PAP holding leave responsibilities.

  Anyone else gets 403. Nobody falls through to the generic approval permission before that test. The generic check (`ActionLogApprovalSerializer`, then `ActionLog.reject`) is reached only after the gate, at stages outside the three approval stages.
- **Fallback approval has no gate** (`views.py:572-682`). With no assignment history, or at a stage outside the chain, any authenticated caller's approval is applied.
- **Notification de-duplication.** `perform_create` notifies the root author of a thread without checking who was already notified (`views.py:993-1003`). A reply to someone's top-level comment therefore notifies that person twice.

  In the same action the serializer stores no parent link. `parent_id` is a write-only field that is not a model field, and the parent looked up from `parent_comment_id` feeds only the notifications.
- **Commissioner role guard is dead code.** In `UserViewSet`, `perform_create` and `perform_update` guard against giving the commissioner role. The guard can never fire: `role` is a read-only field of `UserSerializer`, so it never reaches the validated data. For the same reason `password` (not among the declared fields) is never set by a request.
- **Ag. C/PAP is also a unit head.** Every "Ag. C/PAP" designation also passes the unit-head test (it ends with "/pap").
- **Ticket fields the model class does not declare.** The serializer and the views read and write `team_leader`, `entry_date` and `current_update` on a ticket (`serializers.py:37-56`, `views.py:199-206`). The `ActionLog` class in `backend/action_logs/models.py:9-51` declares none of them. The model follows the serializer and the views:
  - the ticket record has a `teamLeader` field;
  - `current_update` is an input to its rendering;
  - `entry_date` is not modelled.
- **Dry runs revoke.** The `revoke_expired_delegations` command lists the selected rows before it tests `--dry-run`. Loading each row runs the post-init hook, and the hook deactivates it. A dry run therefore revokes the same rows as a real run. The real run's bulk update then finds nothing, and it reports the count of the listed rows.
- **Unit heads cannot open any ticket while one awaits them.** In `get_queryset`'s unit-head branch (`views.py:33-67`) the distinct department-or-assignee queryset is combined with `unit_head_logs`, which is not distinct, whenever `unit_head_logs` is not empty (`views.py:62-63`). The query layer refuses to combine a distinct query with a non-distinct one and raises. So while any ticket is pending unit-head approval for the actor's unit, every approve, reject and update request of that actor fails with a 500 (`UnitHeadPendingCrashes`). The tickets the branch means to add are never reachable.
- **Reassigning a ticket without a due date fails after saving.** The assignment text message in `update` formats the stored `due_date` without the null check that ticket creation has (`views.py:225` against `:131`). When a new assignee has a phone number and the due date is null, the request fails with a 500 after the closure and reassignment steps were saved (`SmsFailed`).
- **A status change with no comment fails after saving.** When `update` changes the status and the request has no `comment` key, it creates a comment row with a null text. The `comment` column is NOT NULL, so the request fails with a 500 after the ticket was saved.

## Model

| member | source | states |
|---|---|---|
| UserModels.AtMostOneRole | backend/users/models.py:79-101 | no user satisfies two different role properties |
| UserModels.SaveUser | backend/users/models.py:70-74 | a commissioner or assistant commissioner is saved without a department unit; every other user and every other field is saved unchanged |
| UserModels.SaveUserIdempotent | backend/users/models.py:70-74 | saving a saved user changes nothing |
| UserModels.PhoneMatcherSound | backend/users/models.py:39-43 | every phone number the validator accepts is an optional `+`, an optional `1`, 9 to 15 ASCII digits and an optional trailing newline (search semantics of `$`) |
| UserModels.PhoneMatcherComplete | backend/users/models.py:39-43 | every string of that shape (ASCII digits) is accepted |
| UserModels.PhoneAcceptedExamples | backend/users/models.py:39-43 | concrete numbers the field accepts, including one with a trailing newline |
| UserModels.PhoneRefusedExamples | backend/users/models.py:39-43 | concrete numbers the field refuses: too few digits, a letter among the digits |
| Permissions.SuperAdminOrReadOnly | backend/users/permissions.py:3-7 | granted exactly for safe methods or a super admin; an unsafe request from a user without a role raises |
| Permissions.DepartmentUser | backend/users/permissions.py:9-13 | granted exactly for a super admin or an object of the user's own department; any user without a role raises |
| Permissions.ManageUsers | backend/users/permissions.py:15-21 | granted exactly for safe methods or a super admin, commissioner or assistant commissioner; an unsafe request from a user without a role raises |
| Permissions.SafeMethodsGrantedToAll | backend/users/permissions.py:3-21 | both method-level checks grant every safe request, whoever makes it |
| Permissions.ManageUsersExtendsSuperAdminOrReadOnly | backend/users/permissions.py:3-21 | `CanManageUsers` grants whatever `IsSuperAdminOrReadOnly` grants, and both raise on the same requests |
| Permissions.RolelessUserCrashes | backend/users/permissions.py:3-21 | a user without a role gets a raise from every unsafe request and every object check |
| Permissions.CanApproveActionLog | backend/users/permissions.py:23-56 | no user means no; super admin and commissioner always; otherwise the delegation-aware helper decides when it exists; else the role's `can_approve` or an assistant commissioner of the log's department |
| Permissions.DelegationHelperOverridesRole | backend/users/permissions.py:41-43 | once the delegation-aware helper exists, its answer is the result whatever the department |
| Permissions.DefaultRoleApprovesByNameOnly | backend/users/models.py:23-30 | a role with the field defaults (no `can_approve`) lets its holder approve only as super admin, commissioner, or assistant commissioner of the ticket's department |
| Delegations.FirstActiveReceived | backend/action_logs/views.py:470 | the result is the first active delegation received by the user in table order, and None exactly when there is none |
| Delegations.CountWhereZero | backend/users/management/commands/revoke_expired_delegations.py:27-31 | the count of selected active rows is zero exactly when no active row is selected |
| Delegations.CountWhereBound | backend/users/management/commands/revoke_expired_delegations.py:54 | the count never exceeds the number of rows |
| Delegations.DeactivateWhereSettles | backend/users/management/commands/revoke_expired_delegations.py:54-55 | the bulk update never activates a row, leaves unselected rows alone, is idempotent, and leaves nothing to count |
| Delegations.CountWhereMonotone | backend/users/signals.py:27-51 | selecting more of the active rows never counts fewer |
| Delegations.RevokedIsCount | backend/users/management/commands/revoke_expired_delegations.py:27-31 | the bulk update turns inactive exactly as many rows as it counts |
| Delegations.NothingSelectedNothingChanged | backend/users/management/commands/revoke_expired_delegations.py:27-31 | with no active row selected, the bulk update changes nothing |
| Delegations.DelegationTable.DeactivateSelected | backend/users/management/commands/revoke_expired_delegations.py:54-55 | the loop makes exactly the selected active rows inactive and returns how many it changed |
| DelegationSignals.OnSave | backend/users/signals.py:10-15 | an expired delegation is saved inactive; any other is saved as it is; only `is_active` can change and it never turns on |
| DelegationSignals.OnAccess | backend/users/signals.py:17-25 | the load-time hook agrees with the pre-save hook on every record |
| DelegationSignals.OnSaveIdempotent | backend/users/signals.py:10-25 | applying either hook to its own result changes nothing |
| DelegationSignals.LoadRow | backend/users/signals.py:17-25 | loading a row returns the reconciled record and writes it back to that row only |
| DelegationSignals.OnLogin | backend/users/signals.py:27-51 | a user without a unit changes nothing; otherwise each active delegation granted in the unit is loaded (the post-init hook deactivates an expired one) and deactivated when `is_expired` holds of the loaded record; exactly those are counted |
| DelegationSignals.SweepRow | backend/users/signals.py:40-45 | one row of the sweep ends deactivated exactly when it was active, granted in the unit, and expired on load or by `is_expired`; it is counted exactly when `is_expired` holds of the loaded record |
| DelegationSignals.LoginSweepSettles | backend/users/signals.py:27-51 | a second login sweep finds nothing, no sweep activates a record, and delegations granted outside the unit are untouched |
| DelegationSignals.LoginRevokesEveryExpired | backend/users/signals.py:17-43 | every delegation of the unit that expired before `now` ends inactive, whatever `is_expired` says |
| DelegationSignals.LoginCountBounded | backend/users/signals.py:17-51 | the reported count is at most the number of delegations the sweep turns inactive, and equal to it when `is_expired` holds of every loaded delegation that expired before `now` |
| RevokeExpiredDelegations.Handle | backend/users/management/commands/revoke_expired_delegations.py:18-61 | on every path the rows whose expiry lies before now end inactive (listing loads them, and loading deactivates them), also on a dry run; the report is nothing found, the dry-run count, or the revoked count |
| RevokeExpiredDelegations.ListSelected | backend/users/management/commands/revoke_expired_delegations.py:37-42 | listing loads every selected row, which deactivates it, and lists as many rows as were selected |
| RevokeExpiredDelegations.Selected | backend/users/management/commands/revoke_expired_delegations.py:22-34 | the loop counts the active rows whose expiry lies before now |
| RevokeExpiredDelegations.RevokeLeavesNoExpired | backend/users/management/commands/revoke_expired_delegations.py:53-55 | after a real run no active delegation has expired, rows without expiry are untouched, and a rerun finds nothing |
| RevokeExpiredDelegations.ExpiredCountBounds | backend/users/management/commands/revoke_expired_delegations.py:27-34 | the reported count is at most the table size and zero exactly when no active row has expired |
| ActionLogModels.NewActionLog | backend/action_logs/models.py:36-51 | a new ticket is open, medium priority, at stage none, with no assignees, approval, rejection, closure request, history or comments |
| ActionLogModels.CanApprove | backend/action_logs/models.py:62-65 | the ticket's approval test is `can_approve_action_log` for its department |
| ActionLogModels.ModelApprove | backend/action_logs/models.py:67-75 | refused with a permission error exactly when the user may not approve; otherwise status approved, approver and time recorded, stage unchanged |
| ActionLogModels.ModelReject | backend/action_logs/models.py:77-86 | refused exactly when the user may not approve; otherwise status rejected, approver, time and reason recorded, stage unchanged |
| ActionLogModels.ApproveRejectSameGate | backend/action_logs/models.py:67-86 | approve succeeds exactly when reject does |
| ActionLogModels.FirstAssignee | backend/action_logs/views.py:417 | the first assignee is one with the smallest id, and None exactly when there are no assignees |
| ActionLogModels.OldestIndex | backend/action_logs/views.py:152 | the index of an assignment record no later than any other, earliest among ties |
| ActionLogModels.OriginalAssignment | backend/action_logs/views.py:410 | the oldest assignment record, None exactly for an empty history |
| ActionLogModels.OriginalAssignmentStable | backend/action_logs/models.py:199 | appending a later assignment keeps the original assignment |
| ActionLogSerializers.Validate | backend/action_logs/serializers.py:153-180 | refused for an undeclared status; refused exactly when two or more assignees and a supplied leader outside them; a past due date refuses; an accepted payload changes at most the team leader, which for two or more assignees is one of them (the first when none was supplied) |
| ActionLogSerializers.ValidateIdempotent | backend/action_logs/serializers.py:153-180 | a validated payload validates to itself |
| ActionLogSerializers.FewAssigneesLeaderUnchecked | backend/action_logs/serializers.py:162-171 | with fewer than two assignees the team leader is never checked |
| ActionLogSerializers.Create | backend/action_logs/serializers.py:104-151 | an unknown department is refused; otherwise the new ticket has the creator, department, assignees, status and priority given (open and medium by default), stage none, empty history, and the supplied leader or else the first of two or more assignees |
| ActionLogSerializers.ValidatedCreateLeaderAssigned | backend/action_logs/serializers.py:143-171 | a validated ticket with two or more assignees has one of them as team leader |
| ActionLogSerializers.RenderCurrentUpdate | backend/action_logs/serializers.py:97-102 | a missing or blank update renders as "No update yet", any other as itself; the rendering is never blank |
| ActionLogSerializers.RenderCurrentUpdateIdempotent | backend/action_logs/serializers.py:97-102 | rendering a rendered value again changes nothing |
| ActionLogSerializers.OriginalAssigner | backend/action_logs/serializers.py:81-95 | None exactly for an empty history; otherwise the assigner of an assignment no later than any other |
| ActionLogSerializers.OriginalAssignerStable | backend/action_logs/serializers.py:81-95 | a later reassignment does not change the original assigner |
| ActionLogSerializers.ApprovalValidate | backend/action_logs/serializers.py:182-194 | refused exactly when the requester may not approve the ticket |
| ActionLogSerializers.RenderAssignedBy | backend/action_logs/serializers.py:212-218 | a rendered assigner is kept; a null one with a stored truthy id (present and not 0) becomes a placeholder with that id; null exactly when the rendering is null and the id is missing or 0 |
| ActionLogViews.AgCpapIsSubstringTest | backend/action_logs/views.py:432-437 | the Ag. C/PAP test is exactly the two substring tests; its equality tests add nothing |
| ActionLogViews.AgCpapDesignationIsUnitHead | backend/action_logs/views.py:423-437 | the designation "Ag. C/PAP" passes both the Ag. C/PAP test and the unit-head test |
| ActionLogViews.OnlyFirstReceivedCounts | backend/action_logs/views.py:470-471 | a leave delegation received after an active one for another reason does not put the actor on leave |
| ActionLogViews.Advance | backend/action_logs/views.py:539-563 | one step up the chain; status becomes closed only on the commissioner step; nothing else changes; off the chain nothing changes |
| ActionLogViews.ThreeApprovalsClose | backend/action_logs/views.py:539-563 | three ordinary steps from the unit-head stage reach stage and status closed, and status stays put until the last |
| ActionLogViews.CloseOutright | backend/action_logs/views.py:518-537 | stage and status both become closed and nothing else changes |
| ActionLogViews.WithComment | backend/action_logs/views.py:527-537 | a non-empty comment is appended with the ticket's status and the approval flag; an empty one appends nothing |
| ActionLogViews.GetObject | backend/action_logs/views.py:24-84 | raises exactly for an actor without a role, or in the unit-head branch when `unit_head_logs` is not empty; otherwise finds exactly the tickets of the queryset |
| ActionLogViews.QuerysetCoversOwnTickets | backend/action_logs/views.py:24-84 | commissioners and super admins find every ticket; anyone else with a role finds the tickets of their department and those assigned to them, except that in the unit-head branch they are found exactly while no ticket is pending unit-head approval for the actor's unit |
| ActionLogViews.QuerysetHidesOtherTickets | backend/action_logs/views.py:24-84 | a ticket of another department and not assigned to the actor is never found by anyone but commissioners and super admins, and outside the unit-head branch it is a 404 |
| ActionLogViews.UnitHeadPendingCrashes | backend/action_logs/views.py:33-67 | while any ticket is pending unit-head approval for the unit of an actor in the unit-head branch, that actor's approve, reject and update requests all fail with a 500 |
| ActionLogViews.FallbackApprove | backend/action_logs/views.py:572-682 | once `get_object` has found the ticket, the fallback always succeeds and applies the approval step |
| ActionLogViews.Approve | backend/action_logs/views.py:402-570 | once the ticket is found: on the chain, 500 exactly when the original assigner or the actor has no role, 403 with the stage exactly when the stage gate refuses; never 400; on success the approval step plus the comment |
| ActionLogViews.ApproveView | backend/action_logs/views.py:402-570 | 404 exactly for a ticket outside the actor's queryset; 500 exactly when `get_object` raises or, on the chain, the original assigner has no role; 403 exactly when the stage gate refuses a found ticket; on success the approval step plus the comment |
| ActionLogViews.ApproveTouchesOnlyStageStatusComments | backend/action_logs/views.py:402-682 | a successful approval changes only stage, status and comments, closes status only together with stage, never moves the stage backwards, and never sets status approved |
| ActionLogViews.OrdinaryApprovalAdvancesOneStep | backend/action_logs/views.py:539-563 | an approver who is neither Ag. C/PAP nor covering Ag. AC/PAP moves an approval stage exactly one step |
| ActionLogViews.ShortCircuitCloses | backend/action_logs/views.py:468-537 | an Ag. C/PAP not on leave, or a covering Ag. AC/PAP, who passes the gate closes the ticket outright |
| ActionLogViews.AgCpapOnLeaveAdvances | backend/action_logs/views.py:468-505 | an Ag. C/PAP on leave only advances one step |
| ActionLogViews.StageGateMeaning | backend/action_logs/views.py:445-462 | at the unit-head stage exactly unit heads of the first assignee's unit pass; at the other two stages exactly that role; a refusal saves nothing |
| ActionLogViews.FallbackHasNoGate | backend/action_logs/views.py:564-682 | off the chain every approval of a found ticket succeeds, and an ordinary approver at a non-chain stage changes only the comments |
| ActionLogViews.FallbackReject | backend/action_logs/views.py:779-883 | once the ticket is found: 403 exactly for actors outside the two that may reject; demotes one stage from the commissioner stages and resets from unit head; elsewhere 400 exactly when the approval test fails and otherwise the model's reject |
| ActionLogViews.Reject | backend/action_logs/views.py:685-777 | once the ticket is found: 403 exactly for actors outside the two; on the chain 500 exactly when the original assigner has no role, else stage none and status in progress with the comment; off the chain the fallback |
| ActionLogViews.RejectView | backend/action_logs/views.py:685-777 | 404 exactly for a ticket outside the actor's queryset; 500 exactly when `get_object` raises or, for a permitted actor on the chain, the original assigner has no role; 403 exactly for a found ticket and an actor outside the two; on the chain a success resets the stage with the comment |
| ActionLogViews.RejectOnlyTwoActors | backend/action_logs/views.py:692-733 | for an actor for whom `get_object` finds the ticket, refused exactly unless the actor is an Ag. C/PAP not on leave or a covering Ag. AC/PAP |
| ActionLogViews.RejectNeverAdvances | backend/action_logs/views.py:735-859 | a rejection at an approval stage lowers the stage, sets status in progress, and changes nothing but stage, status and comments |
| ActionLogViews.RejectComment | backend/action_logs/views.py:760-768 | a rejection appends a non-empty comment marked not approved with status in progress, and nothing for an empty one |
| ActionLogViews.RequestedStage | backend/action_logs/views.py:150-194 | the chain starts at the commissioner or assistant commissioner stage when the original assigner holds that role, at unit head otherwise or with no history; no stage when that assigner has no role |
| ActionLogViews.Reassign | backend/action_logs/views.py:197-212 | the new assignees are stored, the first of two or more becomes team leader, fewer clear it, and one history record by the actor is appended |
| ActionLogViews.Update | backend/action_logs/views.py:142-246 | once the ticket is found: 500 before saving exactly for a close request whose original assigner has no role; otherwise 500 exactly when a new assignee has a phone number and the stored due date is null, with the closure and reassignment saved and no comment; otherwise 400 exactly when validation refuses, with the closure and reassignment already saved |
| ActionLogViews.UpdateView | backend/action_logs/views.py:142-246 | 404 exactly for a ticket outside the actor's queryset; 500 before saving exactly when `get_object` raises or for a close request whose original assigner has no role; every other response (including the text-message 500) is that of the update of the found ticket |
| ActionLogViews.CloseRequestPendsApproval | backend/action_logs/views.py:150-194 | a close request sets status pending approval, records the requester, starts the chain at the requested stage and appends the comment |
| ActionLogViews.UpdateNeverCloses | backend/action_logs/views.py:142-246 | an update never closes an open ticket; without a close request the stage is kept and a given status is applied; a given priority and due date are applied and absent ones kept; id, department, creator, approver, approval time and rejection reason are unchanged |
| ActionLogViews.ReassignTeamLeader | backend/action_logs/views.py:197-238 | whether the update succeeds or is refused, the assignees and one new history record are saved, and the team leader rule holds |
| ActionLogViews.UpdateCommentRule | backend/action_logs/views.py:239-245 | after validation: a status change with no comment fails with the ticket saved and no comment; otherwise one comment, with the request's text and the saved status, is appended exactly when the request had a non-empty comment or changed the status |
| CommentFanout.Root | backend/action_logs/views.py:329-331 | the walk up the reply chain ends at a comment without a parent, no later than the start |
| CommentFanout.RootIsTopAncestor | backend/action_logs/views.py:329-331 | the root is an ancestor of the start, and the only ancestor without a parent |
| CommentFanout.NotifyAssigneesMembers | backend/action_logs/views.py:290-300 | the first assignee loop notifies exactly the assignees other than the sender |
| CommentFanout.NotifyAssigneesDistinct | backend/action_logs/views.py:290-300 | with distinct assignees nobody is notified twice by that loop |
| CommentFanout.PostRecipientsExact | backend/action_logs/views.py:290-341 | the `comments` action notifies exactly the assignees, the parent's author and the root's author, never the sender, and nobody twice |
| CommentFanout.CreateRecipientsVersusPost | backend/action_logs/views.py:944-1003 | `perform_create` reaches the same people, but repeats the root's author when already notified |
| CommentFanout.CreateNotifiesRootTwice | backend/action_logs/views.py:993-1003 | a reply to another user's top-level comment notifies that user twice through `perform_create` and once through `comments` |
| CommentFanout.MarkViewedSettles | backend/action_logs/views.py:379-393 | marking keeps reply links, never un-marks, marks every comment of the ticket, leaves unrelated comments alone, and is idempotent |
| CommentFanout.CommentBoard.RootOf | backend/action_logs/views.py:329-331 | the loop finds the root of the reply chain |
| CommentFanout.CommentBoard.NotifyAssigneeLoops | backend/action_logs/views.py:290-313 | the two assignee loops write one notification per assignee other than the sender, and the second loop adds none |
| CommentFanout.CommentBoard.FanOut | backend/action_logs/views.py:290-341 | the notifications written are those of the recipient list, with or without the root de-duplication |
| CommentFanout.CommentBoard.PostComment | backend/action_logs/views.py:249-355 | 404 exactly for a missing ticket; 500 for a role-less actor or a missing text; 403 without view permission; a visible ticket with a text is always posted, as one comment with the existing parent (or none) and the notifications for exactly its recipients |
| Common.StripMeaning | backend/action_logs/serializers.py:236-245 | the `comment` field's whitespace trimming leaves nothing exactly for a blank text, and otherwise a piece of the text that starts and ends with a non-space |
| CommentFanout.CommentBoard.PerformCreate | backend/action_logs/views.py:926-1016 | 400 exactly for an unknown ticket id or a missing or blank text (the serializer's `action_log` and `comment` fields refuse them before `perform_create`), with nothing written; otherwise one comment holding the stripped text and no parent link, then notifications including the repeated root author |
| CommentFanout.NoOwnCommentsNothingTouched | backend/action_logs/views.py:387-391 | when the ticket has no comments, marking changes nothing (the reply update is skipped) |
| CommentFanout.CommentBoard.MarkOwnComments | backend/action_logs/views.py:381-387 | the first update marks exactly the ticket's comments viewed and collects their ids |
| CommentFanout.CommentBoard.MarkReplies | backend/action_logs/views.py:388-391 | the second update marks the replies to those comments, completing the marked table |
| CommentFanout.CommentBoard.MarkCommentsViewed | backend/action_logs/views.py:358-399 | 404 exactly for a missing ticket; 500 for a role-less actor; 403 without view permission; otherwise a 200 for the ticket, and the comment table becomes exactly the marked table; no notification is written |
| UserSerializers.Deserialize | backend/users/serializers.py:12-34 | validated data never carries a role or a password; every other field passes through |
| UserSerializers.Validate | backend/users/serializers.py:42-46 | updating a commissioner or assistant commissioner forces the unit to null; nothing else changes |
| UserSerializers.ValidateIdempotent | backend/users/serializers.py:42-46 | validating validated data changes nothing |
| UserSerializers.RenderEmail | backend/users/serializers.py:36-40 | a missing email renders as empty; a stored one as itself |
| UserSerializers.RenderEmailKeepsStored | backend/users/serializers.py:36-40 | rendering keeps every stored email and treats missing like empty |
| UserSerializers.ApplyFields | backend/users/serializers.py:48-62 | each of email, unit, designation, phone number and role is written when supplied and kept otherwise; nothing else changes |
| UserSerializers.WithPassword | backend/users/serializers.py:49-53 | a non-empty password is stored hashed; otherwise the user is unchanged |
| UserSerializers.CreateUser | backend/users/serializers.py:48-54 | the created user has the id, the supplied email, designation, phone number, role and unit (none when unitless), the hashed password only when one was given, and no department |
| UserSerializers.UpdateUser | backend/users/serializers.py:56-62 | the updated user keeps its id and department; each of email, designation, phone number, role and unit is the supplied one or else the stored one (no unit when unitless); the password changes only when a new one is given |
| UserSerializers.RequestNeverSetsPassword | backend/users/serializers.py:12-62 | through this serializer a request never sets or changes a password |
| UserSerializers.UnitlessRoleStaysUnitless | backend/users/serializers.py:42-62 | updating a commissioner or assistant commissioner leaves them without a unit whatever the request says |
| UserViews.VisibleUsers | backend/users/views.py:21-57 | every listed user matches the query filters; super admins and viewers of all users see exactly the filtered table; others exactly the filtered users of their unit, or of their department when they have no unit |
| UserViews.FiltersOnlyNarrow | backend/users/views.py:33-40 | adding a department filter never shows more users |
| UserViews.RoleGuard | backend/users/views.py:63-66 | refuses exactly a commissioner role from an actor who may not assign it |
| UserViews.PerformCreate | backend/users/views.py:59-68 | denied exactly when the guard refuses the validated data; otherwise the user the serializer creates |
| UserViews.PerformUpdate | backend/users/views.py:70-79 | denied exactly when the guard refuses the validated data; otherwise the user the serializer updates |
| UserViews.GuardNeverFires | backend/users/views.py:59-79 | no create or update request is denied, created users have no role, and updates keep the role |
| UserViews.GuardRefusesCommissioner | backend/users/views.py:63-66 | the guard refuses a commissioner role from an actor without the permission |
| UserViews.DepartmentUsers | backend/users/views.py:86-96 | an error exactly without a department; otherwise exactly the users of that department |
| UserViews.DepartmentUnitUsers | backend/users/views.py:98-108 | an error exactly without a unit; otherwise exactly the users of that unit |

## Left out

- SMS and other messaging (`SMSNotificationService`, the assignment SMS in `update`): external I/O. The messages sent are not modelled; the crash of the assignment message on a null due date is (the `SmsFailed` outcome of `ActionLogViews.Update`).
- Logging and `print` calls: they write nothing the model keeps. Where building a log line loads rows, the load is modelled: the listing loop of `revoke_expired_delegations` (`RevokeExpiredDelegations.ListSelected`).
- Transactions, row locking and concurrent requests. Each request is one atomic step. The one partial save the code makes visible, the update's saves before validation, is modelled.
- Database failures other than the comment text's NOT NULL constraint in `comments` and in `update`. The workflow comments of `approve` and `reject` are written only for a non-empty text, so they cannot hit it.
- The bodies of the Delegation model (`is_expired`, ordering, `revoke_expired_delegations` on the model) and of the User delegation helpers. These are not part of this model; they are inputs.
- `Common.Lower`: ASCII-only, where Python's `str.lower` folds all of Unicode.
- Common.IsDigit: ASCII `0`-`9` only, where `\d` in a `str` pattern matches every Unicode decimal digit. `UserModels.PhoneMatcherSound` and `UserModels.PhoneMatcherComplete` inherit this.
- UserModels.PhoneMatcherSound: a phone number written with non-ASCII decimal digits (Arabic-Indic, Devanagari and so on) is accepted by the validator but refused by the model's matcher. The model's digit class is ASCII only, because the full Unicode digit table depends on the Python version.
- `ActionLog.assignees`: a sequence that may repeat a user, where the database relation is a set. `NotifyAssigneesDistinct` therefore assumes distinct assignees.
- `ActionLogCommentViewSet.perform_create`: the serializer's write-only `parent_id` is not a model field.
  - The model follows the path where the request does not supply it.
  - When the request does supply it, the save fails instead.
- `ActionLogViews.Outcome`: a refused reject carries the ticket's stage, although its response body names no stage.
- Listing and reading endpoints are not modelled: the comment GET branch, `assignment_history`, the notification endpoints, `me`, and ticket `list`. `get_queryset` is modelled only through `GetObject`: the crash, and the membership test `InQueryset`. Its ordering and logging are not. Titles, descriptions and other display fields are not modelled either.
- ActionLogViews.Approve, ActionLogViews.ApproveView and ActionLogViews.FallbackApprove: loading the actor's first active received delegation (`.first()` at `views.py:470`, `:591`) runs the post-init hook, which deactivates that delegation in the table when it has expired. The model does not show that write; the delegation's reason is still used as read.
- ActionLogViews.Reject, ActionLogViews.RejectView and ActionLogViews.FallbackReject: the same load at `views.py:705` and `:795`, with the same unmodelled write.
- ActionLogSerializers.Payload: `priority` holds one of the three declared choices. The serializer's 400 for any other priority value is not modelled.
- `UserSerializers.Validate`: it does not re-run the phone-number validator; that is stated separately by `UserModels.PhoneFieldValid`.
- `get_full_name`, `MinimalUserSerializer`, and the exception branches of the history serializer: display only.
- `Role.can_create_logs` and ticket creation permissions in `ActionLogViewSet.perform_create`: not part of the closure workflow.

=== FILE: action_log_models.dfy ===
/** The ActionLog ("ticket") record of the action_logs app, its comments and
    assignment history, and the model methods `can_approve`, `approve` and
    `reject`. */
module ActionLogModels {
  import opened Common
  import opened UserModels
  import opened Permissions

  /** The ticket's status. `Approved` and `Rejected` are written by
      `ActionLog.approve` and `ActionLog.reject` although they are not among
      the four declared choices. */
  datatype Status = Open | InProgress | PendingApproval | Closed | Approved | Rejected

  /** The four values of `STATUS_CHOICES`. */
  predicate IsDeclaredStatus(s: Status) {
    s == Open || s == InProgress || s == PendingApproval || s == Status.Closed
  }

  datatype Priority = Low | Medium | High

  /** `closure_approval_stage`; `NoStage` is the value 'none'. */
  datatype Stage = NoStage | UnitHead | AssistantCommissioner | Commissioner | Closed | Rejected

  /** The three stages at which a closure waits for approval. */
  predicate IsApprovalStage(s: Stage) {
    s == UnitHead || s == AssistantCommissioner || s == Commissioner
  }

  /** An assignment-history record: who assigned whom, when. */
  datatype Assignment = Assignment(assignedBy: User, assignedTo: seq<UserId>, assignedAt: int, comment: Option<string>)

  /** A comment record. `parent` holds the id of the comment replied to. */
  datatype Comment = Comment(
    logId: nat,
    author: UserId,
    text: Option<string>,
    status: Option<Status>,
    isApproved: bool,
    isViewed: bool,
    parent: Option<nat>)

  /** The ticket. `history` holds the assignment records in the order they were
      created; `comments` the comments the workflow has appended to it. */
  datatype ActionLog = ActionLog(
    id: nat,
    department: DeptId,
    createdBy: UserId,
    status: Status,
    priority: Priority,
    dueDate: Option<int>,
    assignees: seq<User>,
    teamLeader: Option<UserId>,
    approvedBy: Option<UserId>,
    approvedAt: Option<int>,
    rejectionReason: Option<string>,
    stage: Stage,
    closureRequestedBy: Option<UserId>,
    history: seq<Assignment>,
    comments: seq<Comment>)

  /** A freshly created ticket with every field at its declared default. */
  function NewActionLog(id: nat, department: DeptId, createdBy: UserId): (t: ActionLog)
    ensures t.status == Open && t.priority == Medium && t.stage == NoStage
    ensures t.assignees == [] && t.teamLeader.None? && t.dueDate.None?
    ensures t.approvedBy.None? && t.approvedAt.None? && t.rejectionReason.None?
    ensures t.closureRequestedBy.None? && t.history == [] && t.comments == []
    ensures t.id == id && t.department == department && t.createdBy == createdBy
  {
    ActionLog(id, department, createdBy, Open, Medium, None, [], None, None, None, None, NoStage, None, [], [])
  }

  /** `ActionLog.can_approve(user)`: exactly the permission function. */
  function CanApprove(t: ActionLog, p: Principal): (allowed: bool)
    ensures allowed == CanApproveActionLog(p, t.department)
    ensures !p.Member? ==> !allowed
  {
    CanApproveActionLog(p, t.department)
  }

  /** The outcome of the model's `approve`/`reject`: a PermissionError, or the
      ticket as saved. */
  datatype ModelOutcome = PermissionError | Saved(log: ActionLog)

  /** `ActionLog.approve(user)` at time `now`. */
  function ModelApprove(t: ActionLog, p: Principal, now: int): (r: ModelOutcome)
    ensures !CanApprove(t, p) <==> r == PermissionError
    ensures r.Saved? ==> p.Member? && r.log == t.(status := Approved, approvedBy := Some(p.user.id), approvedAt := Some(now))
    ensures r.Saved? ==> r.log.stage == t.stage && !IsDeclaredStatus(r.log.status)
  {
    if !CanApprove(t, p) then PermissionError
    else Saved(t.(status := Approved, approvedBy := Some(p.user.id), approvedAt := Some(now)))
  }

  /** `ActionLog.reject(user, reason)` at time `now`. */
  function ModelReject(t: ActionLog, p: Principal, reason: string, now: int): (r: ModelOutcome)
    ensures !CanApprove(t, p) <==> r == PermissionError
    ensures r.Saved? ==> p.Member? && r.log == t.(status := Status.Rejected, approvedBy := Some(p.user.id),
                                                    approvedAt := Some(now), rejectionReason := Some(reason))
    ensures r.Saved? ==> r.log.stage == t.stage && !IsDeclaredStatus(r.log.status)
  {
    if !CanApprove(t, p) then PermissionError
    else Saved(t.(status := Status.Rejected, approvedBy := Some(p.user.id), approvedAt := Some(now), rejectionReason := Some(reason)))
  }

  /** Approve and reject share one gate: one of them succeeds exactly when the other does. */
  lemma ApproveRejectSameGate(t: ActionLog, p: Principal, reason: string, now: int)
    ensures ModelApprove(t, p, now).Saved? <==> ModelReject(t, p, reason, now).Saved?
  {
  }

  /** The assignee with the smallest id (`assigned_to.first()` on the unordered
      many-to-many relation orders by primary key), or None when there is none. */
  function FirstAssignee(assignees: seq<User>): (r: Option<User>)
    ensures r.None? <==> assignees == []
    ensures r.Some? ==> r.value in assignees && forall u :: u in assignees ==> r.value.id <= u.id
    decreases |assignees|
  {
    if assignees == [] then None
    else
      var rest := FirstAssignee(assignees[1..]);
      if rest.None? || assignees[0].id <= rest.value.id then Some(assignees[0])
      else
        assert forall u :: u in assignees ==> u == assignees[0] || u in assignees[1..];
        rest
  }

  /** The index of the oldest assignment record (`order_by('assigned_at').first()`,
      earliest position among equal times), or None for an empty history. */
  function OldestIndex(h: seq<Assignment>): (r: Option<nat>)
    ensures r.None? <==> h == []
    ensures r.Some? ==> r.value < |h|
    ensures r.Some? ==> forall j :: 0 <= j < |h| ==> h[r.value].assignedAt <= h[j].assignedAt
    ensures r.Some? ==> forall j :: 0 <= j < r.value ==> h[j].assignedAt > h[r.value].assignedAt
    decreases |h|
  {
    if h == [] then None
    else
      var rest := OldestIndex(h[..|h| - 1]);
      if rest.None? || h[|h| - 1].assignedAt < h[rest.value].assignedAt then Some(|h| - 1)
      else
        assert forall j :: 0 <= j < |h| - 1 ==> h[..|h| - 1][j] == h[j];
        rest
  }

  /** The oldest assignment record, if any. */
  function OriginalAssignment(h: seq<Assignment>): (r: Option<Assignment>)
    ensures r.None? <==> h == []
    ensures r.Some? ==> r.value in h && forall a :: a in h ==> r.value.assignedAt <= a.assignedAt
  {
    var i := OldestIndex(h);
    if i.None? then None
    else
      assert forall a :: a in h ==> exists j :: 0 <= j < |h| && h[j] == a;
      Some(h[i.value])
  }

  /** Appending a record no older than every existing one keeps the original
      assignment where it was. */
  lemma {:induction false} OriginalAssignmentStable(h: seq<Assignment>, a: Assignment)
    requires h != []
    requires forall j :: 0 <= j < |h| ==> h[j].assignedAt <= a.assignedAt
    ensures OriginalAssignment(h + [a]) == OriginalAssignment(h)
  {
    var h' := h + [a];
    assert h'[..|h'| - 1] == h;
    var i := OldestIndex(h).value;
    assert !(h'[|h'| - 1].assignedAt < h'[i].assignedAt);
  }
}

=== FILE: action_log_serializers.dfy ===
/** The ActionLog serializers: payload validation (team leader, due date,
    status choice), creation, and the representation defaults. */
module ActionLogSerializers {
  import opened Common
  import opened UserModels
  import opened Permissions
  import opened ActionLogModels

  /** The user ids of a list of users, in order. */
  function Ids(users: seq<User>): (r: seq<UserId>)
    ensures |r| == |users|
    ensures forall k :: 0 <= k < |users| ==> r[k] == users[k].id
  {
    seq(|users|, k requires 0 <= k < |users| => users[k].id)
  }

  /** The fields of an ActionLog write payload the model follows: each may be
      absent; `team_leader` and `due_date` may be present and null. */
  datatype Payload = Payload(
    status: Option<Status>,
    priority: Option<Priority>,
    assignedTo: Option<seq<User>>,
    teamLeader: Field<Option<UserId>>,
    dueDate: Field<Option<int>>)

  datatype ValidationError = UnknownStatus | TeamLeaderNotAssigned | DueDateInPast

  /** A validated payload, or the first error found. */
  datatype Checked = Accepted(data: Payload) | Refused(error: ValidationError)

  /** The assignee list the validator reads (`data.get('assigned_to', [])`). */
  function AssignedList(data: Payload): seq<User> {
    if data.assignedTo.Some? then data.assignedTo.value else []
  }

  /** The team leader the payload supplies; a null or absent one reads as none. */
  function SuppliedLeader(data: Payload): Option<UserId> {
    if data.teamLeader.Present? then data.teamLeader.value else None
  }

  /** The due date lies strictly before `now`. */
  predicate DueInPast(data: Payload, now: int) {
    data.dueDate.Present? && data.dueDate.value.Some? && data.dueDate.value.value < now
  }

  /** Field validation (the status must be one of the four choices) followed by
      `ActionLogSerializer.validate` at time `now`. */
  function Validate(data: Payload, now: int): (r: Checked)
    ensures r == Refused(UnknownStatus) <==> data.status.Some? && !IsDeclaredStatus(data.status.value)
    ensures r == Refused(TeamLeaderNotAssigned) <==>
      (data.status.None? || IsDeclaredStatus(data.status.value)) &&
      |AssignedList(data)| >= 2 && SuppliedLeader(data).Some? && SuppliedLeader(data).value !in Ids(AssignedList(data))
    ensures r.Refused? && r.error == DueDateInPast ==> DueInPast(data, now)
    ensures r.Accepted? ==> !DueInPast(data, now)
    ensures r.Accepted? ==> r.data.(teamLeader := data.teamLeader) == data
    ensures r.Accepted? && |AssignedList(data)| >= 2 ==>
      r.data.teamLeader.Present? && r.data.teamLeader.value.Some? &&
      r.data.teamLeader.value.value in Ids(AssignedList(data))
    ensures r.Accepted? && |AssignedList(data)| >= 2 && SuppliedLeader(data).None? ==>
      r.data.teamLeader == Present(Some(AssignedList(data)[0].id))
    ensures r.Accepted? && !(|AssignedList(data)| >= 2 && SuppliedLeader(data).None?) ==> r.data == data
  {
    if data.status.Some? && !IsDeclaredStatus(data.status.value) then Refused(UnknownStatus)
    else
      var assignees := AssignedList(data);
      var supplied := SuppliedLeader(data);
      if |assignees| >= 2 && supplied.Some? && supplied.value !in Ids(assignees) then Refused(TeamLeaderNotAssigned)
      else if DueInPast(data, now) then Refused(DueDateInPast)
      else if |assignees| >= 2 && supplied.None? then Accepted(data.(teamLeader := Present(Some(assignees[0].id))))
      else Accepted(data)
  }

  /** Validation is idempotent: a validated payload validates to itself. */
  lemma ValidateIdempotent(data: Payload, now: int)
    requires Validate(data, now).Accepted?
    ensures Validate(Validate(data, now).data, now) == Validate(data, now)
  {
    var once := Validate(data, now).data;
    assert AssignedList(once) == AssignedList(data);
  }

  /** With fewer than two assignees the team leader is not checked at all. */
  lemma FewAssigneesLeaderUnchecked(data: Payload, now: int)
    requires data.status.None? && !DueInPast(data, now)
    requires |AssignedList(data)| < 2
    ensures Validate(data, now) == Accepted(data)
  {
  }

  datatype CreateOutcome = UnknownDepartment | Created(log: ActionLog)

  /** `ActionLogSerializer.create`: a new ticket from a validated payload,
      created by `creator` in department `deptId`, which must be one of
      `departments`. */
  function Create(id: nat, creator: User, deptId: DeptId, departments: set<DeptId>, data: Payload): (r: CreateOutcome)
    ensures r.UnknownDepartment? <==> deptId !in departments
    ensures r.Created? ==> r.log.department == deptId && r.log.createdBy == creator.id
    ensures r.Created? ==> r.log.assignees == AssignedList(data) && r.log.stage == NoStage && r.log.history == []
    ensures r.Created? ==> r.log.status == data.status.GetOr(Open)
    ensures r.Created? ==> r.log.priority == data.priority.GetOr(Medium)
    ensures r.Created? && SuppliedLeader(data).Some? ==> r.log.teamLeader == SuppliedLeader(data)
    ensures r.Created? && SuppliedLeader(data).None? && |AssignedList(data)| >= 2 ==>
      r.log.teamLeader == Some(AssignedList(data)[0].id)
    ensures r.Created? && SuppliedLeader(data).None? && |AssignedList(data)| < 2 ==> r.log.teamLeader.None?
  {
    if deptId !in departments then UnknownDepartment
    else
      var assignees := AssignedList(data);
      var leader := if SuppliedLeader(data).Some? then SuppliedLeader(data)
                    else if |assignees| >= 2 then Some(assignees[0].id)
                    else None;
      var due := if data.dueDate.Present? then data.dueDate.value else None;
      Created(NewActionLog(id, deptId, creator.id).(status := data.status.GetOr(Open), priority := data.priority.GetOr(Medium),
                                                    assignees := assignees,
                                                    teamLeader := leader, dueDate := due))
  }

  /** Validation followed by creation: a ticket with two or more assignees
      always has one of them as team leader. */
  lemma ValidatedCreateLeaderAssigned(id: nat, creator: User, deptId: DeptId, departments: set<DeptId>,
                                      data: Payload, now: int)
    requires Validate(data, now).Accepted?
    requires Create(id, creator, deptId, departments, Validate(data, now).data).Created?
    requires |AssignedList(data)| >= 2
    ensures var t := Create(id, creator, deptId, departments, Validate(data, now).data).log;
      t.teamLeader.Some? && t.teamLeader.value in Ids(t.assignees)
  {
    var v := Validate(data, now).data;
    assert AssignedList(v) == AssignedList(data);
  }

  const NO_UPDATE_YET: string := "No update yet"

  /** `ActionLogSerializer.to_representation` for `current_update`: a missing,
      empty or whitespace-only value is shown as "No update yet". */
  function RenderCurrentUpdate(currentUpdate: Option<string>): (r: string)
    ensures IsBlank(currentUpdate.GetOr("")) ==> r == NO_UPDATE_YET
    ensures !IsBlank(currentUpdate.GetOr("")) ==> currentUpdate.Some? && r == currentUpdate.value
    ensures !IsBlank(r)
  {
    var shown := currentUpdate.GetOr("");
    if IsBlank(shown) then
      assert !IsSpace(NO_UPDATE_YET[0]);
      NO_UPDATE_YET
    else shown
  }

  /** Rendering a rendered value again changes nothing. */
  lemma RenderCurrentUpdateIdempotent(currentUpdate: Option<string>)
    ensures RenderCurrentUpdate(Some(RenderCurrentUpdate(currentUpdate))) == RenderCurrentUpdate(currentUpdate)
  {
  }

  /** `get_original_assigner`: who made the oldest assignment, or None. */
  function OriginalAssigner(h: seq<Assignment>): (r: Option<User>)
    ensures r.None? <==> h == []
    ensures r.Some? ==> exists a :: a in h && a.assignedBy == r.value && forall b :: b in h ==> a.assignedAt <= b.assignedAt
  {
    var a := OriginalAssignment(h);
    if a.Some? then Some(a.value.assignedBy) else None
  }

  /** A later reassignment never changes who the original assigner is. */
  lemma OriginalAssignerStable(h: seq<Assignment>, a: Assignment)
    requires h != []
    requires forall j :: 0 <= j < |h| ==> h[j].assignedAt <= a.assignedAt
    ensures OriginalAssigner(h + [a]) == OriginalAssigner(h)
  {
    OriginalAssignmentStable(h, a);
  }

  datatype ApprovalCheck = MayDecide | NoPermission

  /** `ActionLogApprovalSerializer.validate`: the requester may approve or
      reject this ticket. */
  function ApprovalValidate(t: ActionLog, p: Principal): (r: ApprovalCheck)
    ensures r == NoPermission <==> !CanApprove(t, p)
    ensures r == MayDecide ==> p.Member?
  {
    if CanApprove(t, p) then MayDecide else NoPermission
  }

  /** The minimal user rendering used in assignment history. */
  datatype UserSummary = UserSummary(id: UserId, firstName: string, lastName: string, email: string)

  /** `ActionLogAssignmentHistorySerializer.to_representation` for `assigned_by`:
      when the nested rendering came out null but the row holds a truthy id
      (present and not 0), a placeholder with that id and empty names stands
      in. */
  function RenderAssignedBy(assignedById: Option<UserId>, rendered: Option<UserSummary>): (r: Option<UserSummary>)
    ensures rendered.Some? ==> r == rendered
    ensures rendered.None? && assignedById.Some? && assignedById.value != 0 ==>
      r == Some(UserSummary(assignedById.value, "", "", ""))
    ensures r.None? <==> rendered.None? && (assignedById.None? || assignedById.value == 0)
  {
    if rendered.None? && assignedById.Some? && assignedById.value != 0 then Some(UserSummary(assignedById.value, "", "", ""))
    else rendered
  }
}

=== FILE: action_log_views.dfy ===
/** The closure-approval workflow of `ActionLogViewSet`: the closure request
    and reassignment in `update`, the stage-gated `approve` and `reject`, and
    their fallback paths. Each request is a function from the ticket as loaded
    to the response, with the ticket as saved. */
module ActionLogViews {
  import opened Common
  import opened UserModels
  import opened Permissions
  import opened Delegations
  import opened ActionLogModels
  import opened ActionLogSerializers

  /** A response: 404 (the ticket is not in the actor's queryset), 403 naming
      the stage, 400, 500 (an attribute read on a missing role), or 200 with
      the ticket as saved. */
  datatype Outcome = NotFound | Forbidden(stage: Stage) | BadRequest | ServerError | Ok(log: ActionLog)

  // ---------------------------------------------------------------------------
  // Actor classification
  // ---------------------------------------------------------------------------

  /** `(user.designation or '').lower()`. */
  function DesignationOf(u: User): string {
    Lower(u.designation.GetOr(""))
  }

  /** The Ag. C/PAP test on the lowered designation. */
  predicate IsAgCpap(u: User) {
    var d := DesignationOf(u);
    Contains(d, "ag. c/pap") || Contains(d, "ag.c/pap") || d == "ag. c/pap" || d == "ag.c/pap"
  }

  /** The two equality tests add nothing to the two substring tests. */
  lemma AgCpapIsSubstringTest(u: User)
    ensures IsAgCpap(u) <==> Contains(DesignationOf(u), "ag. c/pap") || Contains(DesignationOf(u), "ag.c/pap")
  {
    var d := DesignationOf(u);
    if d == "ag. c/pap" {
      EqualImpliesContains(d, "ag. c/pap");
    }
    if d == "ag.c/pap" {
      EqualImpliesContains(d, "ag.c/pap");
    }
  }

  /** The unit-head test; it reads the role's name, so it needs a role. */
  predicate IsUnitHead(u: User)
    requires u.role.Some?
  {
    var d := DesignationOf(u);
    Contains(d, "head") || Contains(Lower(u.role.value.name), "unit_head") || EndsWith(d, "/pap") || StartsWith(d, "pas")
  }

  /** Every designation "Ag. C/PAP" ends in "/pap", so its holder also passes
      the unit-head test. */
  lemma AgCpapDesignationIsUnitHead(u: User)
    requires u.role.Some? && u.designation == Some("Ag. C/PAP")
    ensures IsAgCpap(u) && IsUnitHead(u)
  {
    var d := DesignationOf(u);
    assert d == "ag. c/pap";
    EqualImpliesContains(d, "ag. c/pap");
  }

  /** The actor's first active received delegation has reason leave. */
  predicate OnLeave(rows: seq<Delegation>, u: User) {
    FirstActiveReceivedReason(rows, u.id) == Some(Leave)
  }

  /** Only the first active delegation counts: a leave delegation received
      after an active one for another reason does not put the actor on leave. */
  lemma OnlyFirstReceivedCounts(u: User, first: Delegation, later: Delegation)
    requires first.isActive && first.delegatedTo == u.id && first.reason == Other
    requires later.delegatedTo == u.id && later.reason == Leave
    ensures !OnLeave([first, later], u)
  {
  }

  /** An Ag. AC/PAP who has taken over an Ag. C/PAP's responsibilities for leave. */
  predicate IsCoveringAgAcpap(u: User) {
    u.hasAgAcpapDesignation && u.hasLeaveDelegationResponsibilities
  }

  /** `is_in_same_unit`: the first assignee has a unit, and it is the actor's. */
  predicate SameUnitAsFirstAssignee(t: ActionLog, u: User) {
    var a := FirstAssignee(t.assignees);
    a.Some? && a.value.departmentUnit.Some? && a.value.departmentUnit == u.departmentUnit
  }

  /** `can_approve_at_stage` for an actor with a role. */
  predicate StageGate(t: ActionLog, u: User)
    requires u.role.Some?
  {
    match t.stage
    case UnitHead => IsUnitHead(u) && SameUnitAsFirstAssignee(t, u)
    case AssistantCommissioner => Lower(u.role.value.name) == ASSISTANT_COMMISSIONER
    case Commissioner => Lower(u.role.value.name) == COMMISSIONER
    case _ => false
  }

  // ---------------------------------------------------------------------------
  // Transitions
  // ---------------------------------------------------------------------------

  /** The stage after one approval step; other stages are left as they are. */
  function NextStage(s: Stage): Stage {
    match s
    case UnitHead => AssistantCommissioner
    case AssistantCommissioner => Commissioner
    case Commissioner => Stage.Closed
    case _ => s
  }

  /** The chain's position: 0 before it, 1 to 3 along it, 4 when closed. */
  function StageRank(s: Stage): nat {
    match s
    case NoStage => 0
    case UnitHead => 1
    case AssistantCommissioner => 2
    case Commissioner => 3
    case Closed => 4
    case Rejected => 0
  }

  /** One step along the chain; status becomes closed only on the last step. */
  function Advance(t: ActionLog): (r: ActionLog)
    ensures r.stage == NextStage(t.stage)
    ensures IsApprovalStage(t.stage) ==> StageRank(r.stage) == StageRank(t.stage) + 1
    ensures !IsApprovalStage(t.stage) ==> r == t
    ensures t.stage == Commissioner ==> r.status == Status.Closed
    ensures t.stage != Commissioner ==> r.status == t.status
    ensures r.(stage := t.stage, status := t.status) == t
  {
    if t.stage == Commissioner then t.(stage := Stage.Closed, status := Status.Closed)
    else t.(stage := NextStage(t.stage))
  }

  /** Three steps from the unit-head stage close the ticket. */
  lemma ThreeApprovalsClose(t: ActionLog)
    requires t.stage == UnitHead
    ensures Advance(t).stage == AssistantCommissioner
    ensures Advance(Advance(t)).stage == Commissioner
    ensures Advance(Advance(Advance(t))).stage == Stage.Closed
    ensures Advance(Advance(Advance(t))).status == Status.Closed
    ensures Advance(Advance(t)).status == t.status
  {
  }

  /** Closing outright: stage and status both become closed. */
  function CloseOutright(t: ActionLog): (r: ActionLog)
    ensures r.stage == Stage.Closed && r.status == Status.Closed
    ensures r.(stage := t.stage, status := t.status) == t
  {
    t.(stage := Stage.Closed, status := Status.Closed)
  }

  /** The comment a workflow action appends: only for a non-empty text, with
      the ticket's status after the transition. */
  function WithComment(t: ActionLog, actor: User, text: string, approved: bool): (r: ActionLog)
    ensures text == "" ==> r == t
    ensures text != "" ==> r == t.(comments := t.comments + [Comment(t.id, actor.id, Some(text), Some(t.status), approved, false, None)])
    ensures r.(comments := t.comments) == t
  {
    if text == "" then t
    else t.(comments := t.comments + [Comment(t.id, actor.id, Some(text), Some(t.status), approved, false, None)])
  }

  /** What an approval that got past the gate does: an Ag. C/PAP on leave
      advances one step, any other Ag. C/PAP closes outright, a covering
      Ag. AC/PAP closes outright, everyone else advances one step. */
  function ApprovalStep(t: ActionLog, actor: User, rows: seq<Delegation>): ActionLog {
    if IsAgCpap(actor) then (if OnLeave(rows, actor) then Advance(t) else CloseOutright(t))
    else if IsCoveringAgAcpap(actor) then CloseOutright(t)
    else Advance(t)
  }

  /** The original assigner's role is missing, so reading its name fails. */
  predicate AssignerRoleMissing(t: ActionLog) {
    t.history != [] && OriginalAssignment(t.history).value.assignedBy.role.None?
  }

  /** The main approval path applies: a closure stage and some assignment history. */
  predicate OnChain(t: ActionLog) {
    IsApprovalStage(t.stage) && t.history != []
  }

  // ---------------------------------------------------------------------------
  // get_object
  // ---------------------------------------------------------------------------

  /** `get_queryset`'s unit-head test, narrower than the stage gate's. */
  predicate ListsAsUnitHead(u: User)
    requires u.role.Some?
  {
    Contains(DesignationOf(u), "head") || Contains(Lower(u.role.value.name), "unit_head")
  }

  /** `get_queryset` takes its unit-head branch: the actor is neither
      commissioner nor super admin, counts as a unit head, and has a unit. */
  predicate UnitHeadBranch(u: User) {
    && u.role.Some?
    && u.role.value.name != COMMISSIONER && u.role.value.name != SUPER_ADMIN
    && ListsAsUnitHead(u) && u.departmentUnit.Some?
  }

  /** Ticket `t` is one of that branch's `unit_head_logs` for `unit`: pending
      at the unit-head stage, with the subquery's unit equal to `unit`.
      `firstAssigneeUnit` is the value of that subquery: the department unit
      of the first assignee of the ticket's oldest assignment record (None
      when there is no record, no assignee or no unit). */
  predicate PendingForUnit(t: ActionLog, unit: UnitId, firstAssigneeUnit: Option<UnitId>) {
    t.stage == UnitHead && t.status == PendingApproval && firstAssigneeUnit == Some(unit)
  }

  /** Whether the queryset `get_queryset` returns holds ticket `t`, for an
      actor with a role: every ticket for commissioners and super admins,
      otherwise the tickets of the actor's department and those assigned to
      them. */
  predicate InQueryset(t: ActionLog, u: User)
    requires u.role.Some?
  {
    var name := u.role.value.name;
    name == COMMISSIONER || name == SUPER_ADMIN || Some(t.department) == u.department || u.id in Ids(t.assignees)
  }

  /** What `get_object` does with ticket `t`. */
  datatype Lookup = Found | Missing | LookupCrashed

  /** `get_object` for ticket `t`: `get_queryset`, then the ticket's lookup in
      it. Reading the role name of an actor without a role raises. In the
      unit-head branch the distinct queryset is combined with
      `unit_head_logs`, which is not distinct, whenever `unit_head_logs` is
      not empty; the query layer refuses that combination and raises.
      `othersPending` says whether some ticket other than `t` is among
      `unit_head_logs` for the actor's unit. */
  function GetObject(t: ActionLog, u: User, firstAssigneeUnit: Option<UnitId>, othersPending: bool): (r: Lookup)
    ensures r == LookupCrashed <==>
      u.role.None? || (UnitHeadBranch(u) && (othersPending || PendingForUnit(t, u.departmentUnit.value, firstAssigneeUnit)))
    ensures r == Found ==> u.role.Some? && InQueryset(t, u)
    ensures r == Missing ==> u.role.Some? && !InQueryset(t, u)
  {
    if u.role.None? then LookupCrashed
    else if UnitHeadBranch(u) && (othersPending || PendingForUnit(t, u.departmentUnit.value, firstAssigneeUnit)) then LookupCrashed
    else if InQueryset(t, u) then Found
    else Missing
  }

  /** Commissioners and super admins find every ticket. Anyone else with a
      role finds the tickets of their own department and those assigned to
      them, except an actor in the unit-head branch, who finds them exactly
      while no ticket at all is pending unit-head approval for their unit. */
  lemma QuerysetCoversOwnTickets(t: ActionLog, u: User, firstAssigneeUnit: Option<UnitId>, othersPending: bool)
    requires u.role.Some?
    ensures IsCommissioner(u) || IsSuperAdmin(u) ==> GetObject(t, u, firstAssigneeUnit, othersPending) == Found
    ensures (Some(t.department) == u.department || u.id in Ids(t.assignees)) && !UnitHeadBranch(u) ==>
      GetObject(t, u, firstAssigneeUnit, othersPending) == Found
    ensures (Some(t.department) == u.department || u.id in Ids(t.assignees)) && UnitHeadBranch(u) ==>
      (GetObject(t, u, firstAssigneeUnit, othersPending) == Found <==>
         !othersPending && !PendingForUnit(t, u.departmentUnit.value, firstAssigneeUnit))
  {
  }

  /** A ticket of another department and not assigned to the actor is never
      found by anyone but commissioners and super admins; outside the unit-head
      branch it is a 404. */
  lemma QuerysetHidesOtherTickets(t: ActionLog, u: User, firstAssigneeUnit: Option<UnitId>, othersPending: bool)
    requires u.role.Some? && !IsCommissioner(u) && !IsSuperAdmin(u)
    requires Some(t.department) != u.department && u.id !in Ids(t.assignees)
    ensures GetObject(t, u, firstAssigneeUnit, othersPending) != Found
    ensures !UnitHeadBranch(u) ==> GetObject(t, u, firstAssigneeUnit, othersPending) == Missing
  {
  }

  // ---------------------------------------------------------------------------
  // approve
  // ---------------------------------------------------------------------------

  /** `_fallback_approve_workflow`: no gate at all. */
  function FallbackApprove(t: ActionLog, actor: User, rows: seq<Delegation>, comment: string): (r: Outcome)
    ensures r.Ok?
    ensures r.log == WithComment(ApprovalStep(t, actor, rows), actor, comment, true)
  {
    Ok(WithComment(ApprovalStep(t, actor, rows), actor, comment, true))
  }

  /** `ActionLogViewSet.approve` once `get_object` has returned the ticket,
      with `rows` the delegation table (for the actor's received delegations)
      and `comment` the request's comment (empty when absent). */
  function Approve(t: ActionLog, actor: User, rows: seq<Delegation>, comment: string): (r: Outcome)
    ensures r.ServerError? <==> OnChain(t) && (AssignerRoleMissing(t) || actor.role.None?)
    ensures r.Forbidden? <==>
      OnChain(t) && !AssignerRoleMissing(t) && actor.role.Some? && !StageGate(t, actor)
    ensures r.Forbidden? ==> r.stage == t.stage
    ensures !r.BadRequest?
    ensures r.Ok? ==> r.log == WithComment(ApprovalStep(t, actor, rows), actor, comment, true)
  {
    if OnChain(t) then
      if AssignerRoleMissing(t) || actor.role.None? then ServerError
      else if !StageGate(t, actor) then Forbidden(t.stage)
      else Ok(WithComment(ApprovalStep(t, actor, rows), actor, comment, true))
    else FallbackApprove(t, actor, rows, comment)
  }

  /** The whole `approve` request: `get_object` first (a 500 when it raises,
      a 404 when the ticket is not in the queryset), then the action. */
  function ApproveView(t: ActionLog, actor: User, rows: seq<Delegation>, comment: string,
                       firstAssigneeUnit: Option<UnitId>, othersPending: bool): (r: Outcome)
    ensures r.NotFound? <==> GetObject(t, actor, firstAssigneeUnit, othersPending) == Missing
    ensures r.ServerError? <==>
      || GetObject(t, actor, firstAssigneeUnit, othersPending) == LookupCrashed
      || (GetObject(t, actor, firstAssigneeUnit, othersPending) == Found && OnChain(t) && AssignerRoleMissing(t))
    ensures r.Forbidden? <==>
      GetObject(t, actor, firstAssigneeUnit, othersPending) == Found
      && OnChain(t) && !AssignerRoleMissing(t) && !StageGate(t, actor)
    ensures !r.BadRequest?
    ensures r.Ok? ==> r.log == WithComment(ApprovalStep(t, actor, rows), actor, comment, true)
  {
    match GetObject(t, actor, firstAssigneeUnit, othersPending)
    case LookupCrashed => ServerError
    case Missing => NotFound
    case Found => Approve(t, actor, rows, comment)
  }

  /** A successful approval changes the stage, the status and the comments only;
      the status either stays or becomes closed together with the stage (so it
      is never newly set to `approved`), and the stage never moves backwards. */
  lemma ApproveTouchesOnlyStageStatusComments(t: ActionLog, actor: User, rows: seq<Delegation>, comment: string)
    requires Approve(t, actor, rows, comment).Ok?
    ensures var r := Approve(t, actor, rows, comment).log;
      && r.(stage := t.stage, status := t.status, comments := t.comments) == t
      && (r.status == t.status || (r.status == Status.Closed && r.stage == Stage.Closed))
      && (r.stage != t.stage ==> StageRank(r.stage) > StageRank(t.stage) || r.stage == Stage.Closed)
      && (r.status == Approved ==> t.status == Approved)
  {
  }

  /** An ordinary approver (neither Ag. C/PAP nor a covering Ag. AC/PAP) who
      passes the gate moves the ticket exactly one step. */
  lemma OrdinaryApprovalAdvancesOneStep(t: ActionLog, actor: User, rows: seq<Delegation>, comment: string)
    requires !IsAgCpap(actor) && !IsCoveringAgAcpap(actor)
    requires Approve(t, actor, rows, comment).Ok?
    requires IsApprovalStage(t.stage)
    ensures var r := Approve(t, actor, rows, comment).log;
      && r.stage == NextStage(t.stage)
      && StageRank(r.stage) == StageRank(t.stage) + 1
      && (r.status == Status.Closed <==> t.stage == Commissioner || t.status == Status.Closed)
  {
  }

  /** An Ag. C/PAP not on leave, or a covering Ag. AC/PAP, who gets past the
      gate closes the ticket outright from any stage. */
  lemma ShortCircuitCloses(t: ActionLog, actor: User, rows: seq<Delegation>, comment: string)
    requires (IsAgCpap(actor) && !OnLeave(rows, actor)) || (!IsAgCpap(actor) && IsCoveringAgAcpap(actor))
    requires Approve(t, actor, rows, comment).Ok?
    ensures Approve(t, actor, rows, comment).log.stage == Stage.Closed
    ensures Approve(t, actor, rows, comment).log.status == Status.Closed
  {
  }

  /** An Ag. C/PAP on leave only advances one step. */
  lemma AgCpapOnLeaveAdvances(t: ActionLog, actor: User, rows: seq<Delegation>, comment: string)
    requires IsAgCpap(actor) && OnLeave(rows, actor)
    requires Approve(t, actor, rows, comment).Ok?
    ensures Approve(t, actor, rows, comment).log.stage == NextStage(t.stage)
  {
  }

  /** At the unit-head stage the gate admits exactly unit heads of the first
      assignee's unit; at the two commissioner stages exactly the role of that
      name. A refusal leaves the ticket as it was (nothing is saved). */
  lemma StageGateMeaning(t: ActionLog, actor: User, rows: seq<Delegation>, comment: string)
    requires OnChain(t) && !AssignerRoleMissing(t) && actor.role.Some?
    ensures t.stage == UnitHead ==>
      (Approve(t, actor, rows, comment).Forbidden? <==> !(IsUnitHead(actor) && SameUnitAsFirstAssignee(t, actor)))
    ensures t.stage == AssistantCommissioner ==>
      (Approve(t, actor, rows, comment).Forbidden? <==> Lower(actor.role.value.name) != ASSISTANT_COMMISSIONER)
    ensures t.stage == Commissioner ==>
      (Approve(t, actor, rows, comment).Forbidden? <==> Lower(actor.role.value.name) != COMMISSIONER)
    ensures Approve(t, actor, rows, comment).Forbidden? ==> Approve(t, actor, rows, comment) == Forbidden(t.stage)
  {
  }

  /** Off the chain (no history, or a stage outside the three) nobody is
      refused: the fallback applies its steps with no gate, and at the other
      stages an ordinary approver's step changes nothing but the comments. */
  lemma FallbackHasNoGate(t: ActionLog, actor: User, rows: seq<Delegation>, comment: string)
    requires !OnChain(t)
    ensures Approve(t, actor, rows, comment).Ok?
    ensures !IsApprovalStage(t.stage) && !IsAgCpap(actor) && !IsCoveringAgAcpap(actor) ==>
      Approve(t, actor, rows, comment).log.(comments := t.comments) == t
  {
  }

  // ---------------------------------------------------------------------------
  // reject
  // ---------------------------------------------------------------------------

  /** `can_reject`: an Ag. C/PAP not on leave, or a covering Ag. AC/PAP. */
  predicate CanReject(actor: User, rows: seq<Delegation>) {
    if IsAgCpap(actor) then !OnLeave(rows, actor) else IsCoveringAgAcpap(actor)
  }

  /** `_fallback_reject_workflow` at time `now`, with `reason` the request's
      `rejection_reason`. */
  function FallbackReject(t: ActionLog, actor: User, rows: seq<Delegation>, comment: string,
                          reason: Option<string>, now: int): (r: Outcome)
    ensures r.Forbidden? <==> !CanReject(actor, rows)
    ensures r.Forbidden? ==> r.stage == t.stage
    ensures !r.ServerError?
    ensures CanReject(actor, rows) && t.stage == AssistantCommissioner ==>
      r == Ok(WithComment(t.(stage := UnitHead, status := InProgress), actor, comment, false))
    ensures CanReject(actor, rows) && t.stage == Commissioner ==>
      r == Ok(WithComment(t.(stage := AssistantCommissioner, status := InProgress), actor, comment, false))
    ensures CanReject(actor, rows) && t.stage == UnitHead ==>
      r == Ok(WithComment(t.(stage := NoStage, status := InProgress), actor, comment, false))
    ensures CanReject(actor, rows) && !IsApprovalStage(t.stage) ==>
      (r.BadRequest? <==> !CanApprove(t, Member(actor)))
    ensures CanReject(actor, rows) && !IsApprovalStage(t.stage) && r.Ok? ==>
      ModelReject(t, Member(actor), reason.GetOr(""), now) == Saved(r.log)
  {
    if !CanReject(actor, rows) then Forbidden(t.stage)
    else if t.stage == AssistantCommissioner then
      Ok(WithComment(t.(stage := UnitHead, status := InProgress), actor, comment, false))
    else if t.stage == Commissioner then
      Ok(WithComment(t.(stage := AssistantCommissioner, status := InProgress), actor, comment, false))
    else if t.stage == UnitHead then
      Ok(WithComment(t.(stage := NoStage, status := InProgress), actor, comment, false))
    else if ApprovalValidate(t, Member(actor)) == NoPermission then BadRequest
    else
      match ModelReject(t, Member(actor), reason.GetOr(""), now)
      case PermissionError => BadRequest
      case Saved(log) => Ok(log)
  }

  /** `ActionLogViewSet.reject` at time `now`, once `get_object` has returned
      the ticket. */
  function Reject(t: ActionLog, actor: User, rows: seq<Delegation>, comment: string,
                  reason: Option<string>, now: int): (r: Outcome)
    ensures r.Forbidden? <==> !CanReject(actor, rows)
    ensures r.Forbidden? ==> r.stage == t.stage
    ensures r.ServerError? <==> CanReject(actor, rows) && OnChain(t) && AssignerRoleMissing(t)
    ensures CanReject(actor, rows) && OnChain(t) && !AssignerRoleMissing(t) ==>
      r == Ok(WithComment(t.(stage := NoStage, status := InProgress), actor, comment, false))
    ensures !OnChain(t) ==> r == FallbackReject(t, actor, rows, comment, reason, now)
  {
    if IsApprovalStage(t.stage) then
      if !CanReject(actor, rows) then Forbidden(t.stage)
      else if t.history != [] then
        if AssignerRoleMissing(t) then ServerError
        else Ok(WithComment(t.(stage := NoStage, status := InProgress), actor, comment, false))
      else FallbackReject(t, actor, rows, comment, reason, now)
    else FallbackReject(t, actor, rows, comment, reason, now)
  }

  /** The whole `reject` request: `get_object` first, then the action. */
  function RejectView(t: ActionLog, actor: User, rows: seq<Delegation>, comment: string,
                      reason: Option<string>, now: int, firstAssigneeUnit: Option<UnitId>, othersPending: bool): (r: Outcome)
    ensures r.NotFound? <==> GetObject(t, actor, firstAssigneeUnit, othersPending) == Missing
    ensures r.ServerError? <==>
      || GetObject(t, actor, firstAssigneeUnit, othersPending) == LookupCrashed
      || (GetObject(t, actor, firstAssigneeUnit, othersPending) == Found && CanReject(actor, rows) && OnChain(t) && AssignerRoleMissing(t))
    ensures r.Forbidden? <==> GetObject(t, actor, firstAssigneeUnit, othersPending) == Found && !CanReject(actor, rows)
    ensures r.Forbidden? ==> r.stage == t.stage
    ensures r.Ok? && OnChain(t) ==>
      r.log == WithComment(t.(stage := NoStage, status := InProgress), actor, comment, false)
  {
    match GetObject(t, actor, firstAssigneeUnit, othersPending)
    case LookupCrashed => ServerError
    case Missing => NotFound
    case Found => Reject(t, actor, rows, comment, reason, now)
  }

  /** Only two kinds of actor may reject a ticket they can see, whatever the
      stage: an Ag. C/PAP whose first active received delegation is not for
      leave, and a covering Ag. AC/PAP. Anyone else with a role is refused and
      nothing changes; an actor without a role gets a 500. */
  lemma RejectOnlyTwoActors(t: ActionLog, actor: User, rows: seq<Delegation>, comment: string,
                            reason: Option<string>, now: int, firstAssigneeUnit: Option<UnitId>, othersPending: bool)
    requires GetObject(t, actor, firstAssigneeUnit, othersPending) == Found
    ensures RejectView(t, actor, rows, comment, reason, now, firstAssigneeUnit, othersPending).Forbidden? <==>
      !((IsAgCpap(actor) && !OnLeave(rows, actor)) || (!IsAgCpap(actor) && IsCoveringAgAcpap(actor)))
  {
  }

  /** A rejection at a closure stage never moves the stage up the chain; from
      the chain it always returns the ticket to in-progress. */
  lemma RejectNeverAdvances(t: ActionLog, actor: User, rows: seq<Delegation>, comment: string,
                            reason: Option<string>, now: int)
    requires IsApprovalStage(t.stage)
    requires Reject(t, actor, rows, comment, reason, now).Ok?
    ensures var r := Reject(t, actor, rows, comment, reason, now).log;
      && StageRank(r.stage) < StageRank(t.stage)
      && r.status == InProgress
      && r.(stage := t.stage, status := t.status, comments := t.comments) == t
  {
  }

  /** The comment a rejection appends carries `is_approved = false` and the
      status after the transition, and is appended only for a non-empty text. */
  lemma RejectComment(t: ActionLog, actor: User, rows: seq<Delegation>, comment: string,
                      reason: Option<string>, now: int)
    requires IsApprovalStage(t.stage)
    requires Reject(t, actor, rows, comment, reason, now).Ok?
    ensures var r := Reject(t, actor, rows, comment, reason, now).log;
      && (comment == "" ==> r.comments == t.comments)
      && (comment != "" ==> r.comments == t.comments + [Comment(t.id, actor.id, Some(comment), Some(InProgress), false, false, None)])
  {
  }

  // ---------------------------------------------------------------------------
  // update
  // ---------------------------------------------------------------------------

  /** The closure stage a close request starts at, from the oldest assignment's
      assigner role; None where that role is missing (the request fails). */
  function RequestedStage(h: seq<Assignment>): (r: Option<Stage>)
    ensures r.None? <==> h != [] && OriginalAssignment(h).value.assignedBy.role.None?
    ensures r.Some? ==> IsApprovalStage(r.value)
    ensures h == [] ==> r == Some(UnitHead)
    ensures r.Some? && h != [] ==>
      var name := Lower(OriginalAssignment(h).value.assignedBy.role.value.name);
      && (name == COMMISSIONER ==> r.value == Commissioner)
      && (name == ASSISTANT_COMMISSIONER ==> r.value == AssistantCommissioner)
      && (name != COMMISSIONER && name != ASSISTANT_COMMISSIONER ==> r.value == UnitHead)
  {
    if h == [] then Some(UnitHead)
    else
      var assigner := OriginalAssignment(h).value.assignedBy;
      if assigner.role.None? then None
      else
        var name := Lower(assigner.role.value.name);
        if name == COMMISSIONER then Some(Commissioner)
        else if name == ASSISTANT_COMMISSIONER then Some(AssistantCommissioner)
        else Some(UnitHead)
  }

  /** An update request: the payload the serializer sees and the popped `comment`. */
  datatype UpdateRequest = UpdateRequest(payload: Payload, comment: Option<string>)

  /** 404 before anything is done; 500 before anything is saved; 500 with the
      ticket as already saved by the closure and reassignment steps, when the
      assignment text message reads a missing due date; 400 with the ticket
      as so saved; 500 after the ticket was saved, when the comment row cannot
      be written (its text column is NOT NULL); or 200 with the ticket as
      saved. */
  datatype UpdateOutcome =
    | UpdateNotFound
    | UpdateCrashed
    | SmsFailed(persisted: ActionLog)
    | UpdateRefused(persisted: ActionLog, error: ValidationError)
    | CommentFailed(persisted: ActionLog)
    | Updated(log: ActionLog)

  /** The request asks to close a ticket that is not closed. */
  predicate ClosingRequest(t: ActionLog, req: UpdateRequest) {
    req.payload.status == Some(Status.Closed) && t.status != Status.Closed
  }

  /** Reassignment: the new assignees, the view's team-leader rule, and one new
      history record by the actor at `now`. */
  function Reassign(t: ActionLog, actor: User, ids: seq<User>, comment: Option<string>, now: int): (r: ActionLog)
    ensures r.assignees == ids
    ensures |ids| >= 2 ==> r.teamLeader == Some(ids[0].id)
    ensures |ids| < 2 ==> r.teamLeader.None?
    ensures r.history == t.history + [Assignment(actor, Ids(ids), now, comment)]
    ensures r.(assignees := t.assignees, teamLeader := t.teamLeader, history := t.history) == t
  {
    t.(assignees := ids,
       teamLeader := if |ids| >= 2 then Some(ids[0].id) else None,
       history := t.history + [Assignment(actor, Ids(ids), now, comment)])
  }

  /** The closure step and the reassignment step, saved before validation. */
  function Presave(t: ActionLog, actor: User, req: UpdateRequest, now: int): ActionLog
    requires !ClosingRequest(t, req) || RequestedStage(t.history).Some?
  {
    var t1 := if ClosingRequest(t, req)
              then t.(stage := RequestedStage(t.history).value, closureRequestedBy := Some(actor.id), status := PendingApproval)
              else t;
    if req.payload.assignedTo.Some? then Reassign(t1, actor, req.payload.assignedTo.value, req.comment, now) else t1
  }

  /** The validated payload written onto the ticket (partial update). */
  function ApplyPayload(t: ActionLog, data: Payload): ActionLog {
    t.(status := data.status.GetOr(t.status),
       priority := data.priority.GetOr(t.priority),
       assignees := if data.assignedTo.Some? then data.assignedTo.value else t.assignees,
       teamLeader := if data.teamLeader.Present? then data.teamLeader.value else t.teamLeader,
       dueDate := if data.dueDate.Present? then data.dueDate.value else t.dueDate)
  }

  /** The status changes: a close request, or a status other than the current one. */
  predicate StatusChanged(t: ActionLog, req: UpdateRequest) {
    ClosingRequest(t, req) || (req.payload.status.Some? && req.payload.status.value != t.status)
  }

  /** The reassignment's text messages fail: a new assignee has a phone
      number, and the message for them formats the ticket's stored due date,
      which is missing. */
  predicate AssignmentSmsCrashes(t: ActionLog, req: UpdateRequest) {
    && req.payload.assignedTo.Some? && t.dueDate.None?
    && exists k :: 0 <= k < |req.payload.assignedTo.value| && req.payload.assignedTo.value[k].phoneNumber != ""
  }

  /** `ActionLogViewSet.update` at time `now`, once `get_object` has returned
      the ticket. */
  function Update(t: ActionLog, actor: User, req: UpdateRequest, now: int): (r: UpdateOutcome)
    ensures !r.UpdateNotFound?
    ensures r.UpdateCrashed? <==> ClosingRequest(t, req) && RequestedStage(t.history).None?
    ensures r.SmsFailed? <==> !r.UpdateCrashed? && AssignmentSmsCrashes(t, req)
    ensures r.SmsFailed? ==> r.persisted == Presave(t, actor, req, now) && r.persisted.comments == t.comments
    ensures r.UpdateRefused? ==> r.persisted == Presave(t, actor, req, now)
    ensures r.UpdateRefused? <==>
      && !r.UpdateCrashed? && !AssignmentSmsCrashes(t, req)
      && Validate(if ClosingRequest(t, req) then req.payload.(status := None) else req.payload, now).Refused?
  {
    if ClosingRequest(t, req) && RequestedStage(t.history).None? then UpdateCrashed
    else if AssignmentSmsCrashes(t, req) then SmsFailed(Presave(t, actor, req, now))
    else
      var statusChanged := StatusChanged(t, req);
      var data := if ClosingRequest(t, req) then req.payload.(status := None) else req.payload;
      var saved := Presave(t, actor, req, now);
      match Validate(data, now)
      case Refused(e) => UpdateRefused(saved, e)
      case Accepted(v) =>
        var t3 := ApplyPayload(saved, v);
        if (req.comment.Some? && req.comment.value != "") || statusChanged then
          if req.comment.None? then CommentFailed(t3)
          else Updated(t3.(comments := t3.comments + [Comment(t.id, actor.id, req.comment, Some(t3.status), false, false, None)]))
        else Updated(t3)
  }

  /** The whole `update` request: the comment is popped, then `get_object`
      runs, then the update. */
  function UpdateView(t: ActionLog, actor: User, req: UpdateRequest, now: int,
                      firstAssigneeUnit: Option<UnitId>, othersPending: bool): (r: UpdateOutcome)
    ensures r.UpdateNotFound? <==> GetObject(t, actor, firstAssigneeUnit, othersPending) == Missing
    ensures r.UpdateCrashed? <==>
      || GetObject(t, actor, firstAssigneeUnit, othersPending) == LookupCrashed
      || (GetObject(t, actor, firstAssigneeUnit, othersPending) == Found && ClosingRequest(t, req) && RequestedStage(t.history).None?)
    ensures r.SmsFailed? || r.UpdateRefused? || r.CommentFailed? || r.Updated? ==>
      GetObject(t, actor, firstAssigneeUnit, othersPending) == Found && r == Update(t, actor, req, now)
  {
    match GetObject(t, actor, firstAssigneeUnit, othersPending)
    case LookupCrashed => UpdateCrashed
    case Missing => UpdateNotFound
    case Found => Update(t, actor, req, now)
  }

  /** The tickets the unit-head branch means to add are never found: while
      any ticket is pending unit-head approval for the actor's unit, every
      approve, reject and update request of that actor fails with a 500,
      whichever ticket it names. */
  lemma UnitHeadPendingCrashes(t: ActionLog, actor: User, rows: seq<Delegation>, comment: string,
                               reason: Option<string>, now: int, req: UpdateRequest,
                               firstAssigneeUnit: Option<UnitId>, othersPending: bool)
    requires UnitHeadBranch(actor)
    requires othersPending || PendingForUnit(t, actor.departmentUnit.value, firstAssigneeUnit)
    ensures ApproveView(t, actor, rows, comment, firstAssigneeUnit, othersPending) == ServerError
    ensures RejectView(t, actor, rows, comment, reason, now, firstAssigneeUnit, othersPending) == ServerError
    ensures UpdateView(t, actor, req, now, firstAssigneeUnit, othersPending) == UpdateCrashed
  {
  }

  /** A close request never closes: it records the requester, sets status
      pending approval, and starts the chain at the stage the original
      assigner's role selects. */
  lemma CloseRequestPendsApproval(t: ActionLog, actor: User, req: UpdateRequest, now: int)
    requires ClosingRequest(t, req)
    requires Update(t, actor, req, now).Updated?
    ensures var r := Update(t, actor, req, now).log;
      && r.status == PendingApproval
      && r.closureRequestedBy == Some(actor.id)
      && r.stage == RequestedStage(t.history).value
      && IsApprovalStage(r.stage)
      && r.comments == t.comments + [Comment(t.id, actor.id, req.comment, Some(PendingApproval), false, false, None)]
  {
  }

  /** An update leaves the ticket closed only if it was closed before; any
      other declared status is applied as given, and the stage is untouched. */
  lemma UpdateNeverCloses(t: ActionLog, actor: User, req: UpdateRequest, now: int)
    requires Update(t, actor, req, now).Updated?
    ensures Update(t, actor, req, now).log.status == Status.Closed ==> t.status == Status.Closed
    ensures !ClosingRequest(t, req) ==> Update(t, actor, req, now).log.stage == t.stage
    ensures !ClosingRequest(t, req) && req.payload.status.Some? ==>
      Update(t, actor, req, now).log.status == req.payload.status.value
    ensures Update(t, actor, req, now).log.priority == req.payload.priority.GetOr(t.priority)
    ensures Update(t, actor, req, now).log.dueDate ==
      if req.payload.dueDate.Present? then req.payload.dueDate.value else t.dueDate
    ensures var r := Update(t, actor, req, now).log;
      && r.id == t.id && r.department == t.department && r.createdBy == t.createdBy
      && r.approvedBy == t.approvedBy && r.approvedAt == t.approvedAt
      && r.rejectionReason == t.rejectionReason
  {
  }

  /** Reassignment appends exactly one history record by the actor, and the
      team leader is the first id for two or more assignees (or the supplied
      one) and none for fewer unless one is supplied. The same holds of what
      was saved when validation then fails. */
  lemma ReassignTeamLeader(t: ActionLog, actor: User, req: UpdateRequest, now: int)
    requires req.payload.assignedTo.Some?
    requires !Update(t, actor, req, now).UpdateCrashed?
    ensures var ids := req.payload.assignedTo.value;
      var saved := match Update(t, actor, req, now)
                   case Updated(l) => l
                   case SmsFailed(p) => p
                   case UpdateRefused(p, _) => p
                   case CommentFailed(p) => p
                   case _ => t;
      && saved.assignees == ids
      && saved.history == t.history + [Assignment(actor, Ids(ids), now, req.comment)]
      && (|ids| >= 2 ==> saved.teamLeader.Some? && saved.teamLeader.value in Ids(ids))
      && (|ids| >= 2 && SuppliedLeader(req.payload).None? ==> saved.teamLeader == Some(ids[0].id))
      && (|ids| < 2 && req.payload.teamLeader.Absent? ==> saved.teamLeader.None?)
  {
    var data := if ClosingRequest(t, req) then req.payload.(status := None) else req.payload;
    assert AssignedList(data) == req.payload.assignedTo.value;
    assert SuppliedLeader(data) == SuppliedLeader(req.payload);
  }

  /** Once validation passes, a comment is appended exactly when the request
      carried a non-empty comment or changed the status, with the request's
      text (possibly empty) and the status as saved. A status change with no
      comment at all cannot write the comment row: the request fails with a
      500 after the ticket is saved, and nothing else is appended. */
  lemma UpdateCommentRule(t: ActionLog, actor: User, req: UpdateRequest, now: int)
    requires !Update(t, actor, req, now).UpdateCrashed? && !Update(t, actor, req, now).UpdateRefused?
    requires !Update(t, actor, req, now).SmsFailed?
    ensures var out := Update(t, actor, req, now);
      && (out.CommentFailed? <==> req.comment.None? && StatusChanged(t, req))
      && (out.CommentFailed? ==> out.persisted.comments == t.comments)
      && (out.Updated? ==>
            (|out.log.comments| == |t.comments| + 1 <==> (req.comment.Some? && req.comment.value != "") || StatusChanged(t, req)))
      && (out.Updated? ==> |out.log.comments| == |t.comments| || |out.log.comments| == |t.comments| + 1)
      && (out.Updated? && |out.log.comments| == |t.comments| + 1 ==>
            out.log.comments[|t.comments|] == Comment(t.id, actor.id, req.comment, Some(out.log.status), false, false, None)
            && req.comment.Some?)
  {
  }
}

=== FILE: comment_fanout.dfy ===
/** The comment table and notification table of the action_logs app, as the
    `comments` POST action, `ActionLogCommentViewSet.perform_create` and
    `mark_comments_viewed` change them. A comment's id is its 1-based position
    in `comments`. */
module CommentFanout {
  import opened Common
  import opened UserModels
  import opened ActionLogModels
  import opened ActionLogSerializers

  /** A notification row: recipient, ticket, and the comment that caused it. */
  datatype Notification = Notification(user: UserId, logId: nat, comment: nat)

  /** The response of a comment request: 400, 404, 403, 500, 201 with the
      new id, or 200 after marking the comments of ticket `logId` viewed. */
  datatype CommentOutcome = Invalid | NotFound | Denied | Failed | Posted(id: nat) | Marked(logId: nat)

  /** Every parent link points to an earlier comment, so walking up the links
      always ends. */
  predicate ParentsEarlier(cs: seq<Comment>) {
    forall k :: 0 <= k < |cs| && cs[k].parent.Some? ==> 1 <= cs[k].parent.value <= k
  }

  /** The comment with id `id` exists. */
  predicate Exists(cs: seq<Comment>, id: nat) {
    1 <= id <= |cs|
  }

  /** Comment `a` is reached from comment `id` by following zero or more
      parent links. */
  predicate Ancestor(cs: seq<Comment>, a: nat, id: nat)
    requires ParentsEarlier(cs) && Exists(cs, id)
    decreases id
  {
    a == id || (cs[id - 1].parent.Some? && Ancestor(cs, a, cs[id - 1].parent.value))
  }

  /** The top of the reply chain above comment `id`. */
  function Root(cs: seq<Comment>, id: nat): (r: nat)
    requires ParentsEarlier(cs) && Exists(cs, id)
    ensures 1 <= r <= id && cs[r - 1].parent.None?
    ensures cs[id - 1].parent.None? ==> r == id
    decreases id
  {
    if cs[id - 1].parent.None? then id else Root(cs, cs[id - 1].parent.value)
  }

  /** The root is the one comment on the chain above `id` that has no parent:
      it is an ancestor of `id`, and every parentless ancestor is the root. */
  lemma {:induction false} RootIsTopAncestor(cs: seq<Comment>, id: nat, a: nat)
    requires ParentsEarlier(cs) && Exists(cs, id)
    decreases id
    ensures Ancestor(cs, Root(cs, id), id)
    ensures Exists(cs, a) && Ancestor(cs, a, id) && cs[a - 1].parent.None? ==> a == Root(cs, id)
  {
    if cs[id - 1].parent.Some? {
      RootIsTopAncestor(cs, cs[id - 1].parent.value, a);
    }
  }

  /** The view-permission test of the two ticket actions, for an actor with a
      role: commissioner or super admin by exact role name, the ticket's
      department, or an assignee. */
  predicate CanViewLog(t: ActionLog, actor: User)
    requires actor.role.Some?
  {
    actor.role.value.name == COMMISSIONER || actor.role.value.name == SUPER_ADMIN
    || Some(t.department) == actor.department
    || actor.id in Ids(t.assignees)
  }

  /** The assignees notified by the first loop: every one but the sender, in order. */
  function NotifyAssignees(assignees: seq<User>, sender: UserId): (r: seq<UserId>)
    ensures |r| <= |assignees|
  {
    if assignees == [] then []
    else
      var last := assignees[|assignees| - 1];
      NotifyAssignees(assignees[..|assignees| - 1], sender) + (if last.id != sender then [last.id] else [])
  }

  /** The first loop notifies exactly the assignees other than the sender. */
  lemma {:induction false} NotifyAssigneesMembers(assignees: seq<User>, sender: UserId)
    ensures forall x :: x in NotifyAssignees(assignees, sender) <==> x != sender && x in Ids(assignees)
  {
    if assignees != [] {
      var init := assignees[..|assignees| - 1];
      NotifyAssigneesMembers(init, sender);
      assert Ids(assignees) == Ids(init) + [assignees[|assignees| - 1].id];
    }
  }

  /** Among distinct assignees the first loop notifies nobody twice. */
  lemma {:induction false} NotifyAssigneesDistinct(assignees: seq<User>, sender: UserId)
    requires forall i, j :: 0 <= i < j < |assignees| ==> assignees[i].id != assignees[j].id
    ensures Distinct(NotifyAssignees(assignees, sender))
  {
    if assignees != [] {
      var init := assignees[..|assignees| - 1];
      NotifyAssigneesDistinct(init, sender);
      NotifyAssigneesMembers(init, sender);
      var last := assignees[|assignees| - 1];
      assert last.id !in Ids(init) by {
        forall k | 0 <= k < |init| ensures Ids(init)[k] != last.id {
          assert init[k] == assignees[k];
        }
      }
    }
  }

  predicate Distinct(s: seq<UserId>) {
    forall i, j :: 0 <= i < j < |s| ==> s[i] != s[j]
  }

  /** Appends `x` unless it is the sender or already notified. */
  function AddOnce(notified: seq<UserId>, x: Option<UserId>, sender: UserId): seq<UserId> {
    if x.Some? && x.value != sender && x.value !in notified then notified + [x.value] else notified
  }

  /** Recipients of the `comments` POST action, in notification order: assignees
      other than the sender, then the parent's author, then the root's author,
      each skipped when already notified or the sender. */
  function PostRecipients(assignees: seq<User>, sender: UserId, parentAuthor: Option<UserId>, rootAuthor: Option<UserId>): seq<UserId> {
    AddOnce(AddOnce(NotifyAssignees(assignees, sender), parentAuthor, sender), rootAuthor, sender)
  }

  /** Recipients of `perform_create`: as above, but the root's author is only
      checked against the sender. */
  function CreateRecipients(assignees: seq<User>, sender: UserId, parentAuthor: Option<UserId>, rootAuthor: Option<UserId>): seq<UserId> {
    var upToParent := AddOnce(NotifyAssignees(assignees, sender), parentAuthor, sender);
    if rootAuthor.Some? && rootAuthor.value != sender then upToParent + [rootAuthor.value] else upToParent
  }

  /** Who the `comments` action notifies: exactly the assignees, the parent's
      author and the root's author, never the sender; with distinct assignees
      nobody is notified twice. */
  lemma PostRecipientsExact(assignees: seq<User>, sender: UserId, parentAuthor: Option<UserId>, rootAuthor: Option<UserId>)
    ensures forall x :: x in PostRecipients(assignees, sender, parentAuthor, rootAuthor) <==>
      x != sender && (x in Ids(assignees) || parentAuthor == Some(x) || rootAuthor == Some(x))
    ensures (forall i, j :: 0 <= i < j < |assignees| ==> assignees[i].id != assignees[j].id) ==>
      Distinct(PostRecipients(assignees, sender, parentAuthor, rootAuthor))
  {
    NotifyAssigneesMembers(assignees, sender);
    if forall i, j :: 0 <= i < j < |assignees| ==> assignees[i].id != assignees[j].id {
      NotifyAssigneesDistinct(assignees, sender);
    }
  }

  /** `perform_create` reaches the same people, but the root's author is
      notified a second time when already notified as an assignee or as the
      parent's author. */
  lemma CreateRecipientsVersusPost(assignees: seq<User>, sender: UserId, parentAuthor: Option<UserId>, rootAuthor: Option<UserId>)
    ensures forall x :: x in CreateRecipients(assignees, sender, parentAuthor, rootAuthor) <==>
      x in PostRecipients(assignees, sender, parentAuthor, rootAuthor)
    ensures var post := PostRecipients(assignees, sender, parentAuthor, rootAuthor);
      var create := CreateRecipients(assignees, sender, parentAuthor, rootAuthor);
      create == post || (rootAuthor.Some? && rootAuthor.value in post && create == post + [rootAuthor.value])
  {
  }

  /** A reply to a top-level comment by someone else notifies that comment's
      author twice through `perform_create` and once through `comments`. */
  lemma CreateNotifiesRootTwice()
    ensures CreateRecipients([], 1, Some(2), Some(2)) == [2, 2]
    ensures PostRecipients([], 1, Some(2), Some(2)) == [2]
  {
  }

  /** The notification rows for a list of recipients. */
  function Notices(recipients: seq<UserId>, logId: nat, commentId: nat): (r: seq<Notification>)
    ensures |r| == |recipients|
    ensures forall k :: 0 <= k < |r| ==> r[k] == Notification(recipients[k], logId, commentId)
  {
    seq(|recipients|, k requires 0 <= k < |recipients| => Notification(recipients[k], logId, commentId))
  }

  lemma NoticesAppend(a: seq<UserId>, b: seq<UserId>, logId: nat, commentId: nat)
    ensures Notices(a + b, logId, commentId) == Notices(a, logId, commentId) + Notices(b, logId, commentId)
  {
  }

  /** The author of comment `id`, when it exists. */
  function AuthorOf(cs: seq<Comment>, id: Option<nat>): Option<UserId> {
    if id.Some? && Exists(cs, id.value) then Some(cs[id.value - 1].author) else None
  }

  /** The author of the root above comment `id`, when it exists. */
  function RootAuthorOf(cs: seq<Comment>, id: Option<nat>): Option<UserId>
    requires ParentsEarlier(cs)
  {
    if id.Some? && Exists(cs, id.value) then Some(cs[Root(cs, id.value) - 1].author) else None
  }

  /** The comment table after `mark_comments_viewed` for ticket `logId`: the
      ticket's comments, and every reply to one of them, are marked viewed. */
  function MarkViewed(cs: seq<Comment>, logId: nat): (r: seq<Comment>)
    ensures |r| == |cs|
    ensures forall k :: 0 <= k < |cs| ==> r[k] == (if TouchedByMark(cs, k, logId) then cs[k].(isViewed := true) else cs[k])
  {
    seq(|cs|, k requires 0 <= k < |cs| => if TouchedByMark(cs, k, logId) then cs[k].(isViewed := true) else cs[k])
  }

  /** Comment k belongs to the ticket or replies to a comment that does. */
  predicate TouchedByMark(cs: seq<Comment>, k: nat, logId: nat)
    requires k < |cs|
  {
    cs[k].logId == logId || (cs[k].parent.Some? && Exists(cs, cs[k].parent.value) && cs[cs[k].parent.value - 1].logId == logId)
  }

  /** Marking keeps the reply structure, never un-marks a comment, marks every
      comment of the ticket and every reply to one, leaves all others alone,
      and marking again changes nothing. */
  lemma MarkViewedSettles(cs: seq<Comment>, logId: nat)
    ensures ParentsEarlier(cs) ==> ParentsEarlier(MarkViewed(cs, logId))
    ensures forall k :: 0 <= k < |cs| && cs[k].isViewed ==> MarkViewed(cs, logId)[k].isViewed
    ensures forall k :: 0 <= k < |cs| && cs[k].logId == logId ==> MarkViewed(cs, logId)[k].isViewed
    ensures forall k :: 0 <= k < |cs| && !TouchedByMark(cs, k, logId) ==> MarkViewed(cs, logId)[k] == cs[k]
    ensures MarkViewed(MarkViewed(cs, logId), logId) == MarkViewed(cs, logId)
  {
    var once := MarkViewed(cs, logId);
    assert forall k :: 0 <= k < |cs| ==> TouchedByMark(once, k, logId) == TouchedByMark(cs, k, logId);
  }

  /** A ticket without comments has no replies to mark either: marking
      changes nothing. */
  lemma NoOwnCommentsNothingTouched(cs: seq<Comment>, logId: nat)
    requires forall k :: 0 <= k < |cs| ==> cs[k].logId != logId
    ensures MarkViewed(cs, logId) == cs
  {
    assert forall k :: 0 <= k < |cs| ==> !TouchedByMark(cs, k, logId);
  }

  /** Appending a comment whose parent already exists keeps the links pointing back. */
  lemma AppendKeepsParentsEarlier(cs: seq<Comment>, c: Comment)
    requires ParentsEarlier(cs)
    requires c.parent.Some? ==> Exists(cs, c.parent.value)
    ensures ParentsEarlier(cs + [c])
  {
    var cs' := cs + [c];
    forall k | 0 <= k < |cs'| && cs'[k].parent.Some? ensures 1 <= cs'[k].parent.value <= k {
      if k < |cs| {
        assert cs'[k] == cs[k];
      }
    }
  }

  /** The comment and notification tables. */
  class CommentBoard {
    var comments: seq<Comment>
    var notifications: seq<Notification>

    predicate Valid()
      reads this
    {
      ParentsEarlier(comments)
    }

    constructor ()
      ensures Valid() && comments == [] && notifications == []
    {
      comments := [];
      notifications := [];
    }

    /** The `while root_comment.parent_comment` walk up the reply chain. */
    method RootOf(id: nat) returns (root: nat)
      requires Valid() && Exists(comments, id)
      ensures root == Root(comments, id)
      ensures 1 <= root <= id && comments[root - 1].parent.None?
    {
      root := id;
      while comments[root - 1].parent.Some?
        invariant 1 <= root <= id
        invariant Root(comments, root) == Root(comments, id)
        decreases root
      {
        root := comments[root - 1].parent.value;
      }
    }

    /** The two assignee loops of both actions for the new comment
        `commentId`: the first notifies every assignee but the sender; the
        second skips everyone already notified, so it adds nobody. */
    method NotifyAssigneeLoops(t: ActionLog, sender: UserId, commentId: nat) returns (notified: seq<UserId>)
      modifies this
      ensures comments == old(comments)
      ensures notified == NotifyAssignees(t.assignees, sender)
      ensures notifications == old(notifications) + Notices(notified, t.id, commentId)
    {
      var assignees := t.assignees;
      notified := [];
      ghost var before := notifications;
      var i := 0;
      while i < |assignees|
        invariant 0 <= i <= |assignees|
        invariant notified == NotifyAssignees(assignees[..i], sender)
        invariant notifications == before + Notices(notified, t.id, commentId)
        invariant comments == old(comments)
      {
        assert assignees[..i + 1][..i] == assignees[..i];
        if assignees[i].id != sender {
          NoticesAppend(notified, [assignees[i].id], t.id, commentId);
          notifications := notifications + [Notification(assignees[i].id, t.id, commentId)];
          notified := notified + [assignees[i].id];
        }
        i := i + 1;
      }
      assert assignees[..i] == assignees;
      NotifyAssigneesMembers(assignees, sender);
      i := 0;
      while i < |assignees|
        invariant 0 <= i <= |assignees|
        invariant notifications == before + Notices(notified, t.id, commentId)
        invariant comments == old(comments)
      {
        assert assignees[i].id == Ids(assignees)[i];
        if assignees[i].id != sender && assignees[i].id !in notified {
          assert false;
        }
        i := i + 1;
      }
    }

    /** Notifies `x` for the new comment unless it is the sender or, when
        `dedupe` holds, already notified; `added` is who was notified. */
    method NotifyOne(t: ActionLog, sender: UserId, commentId: nat, x: Option<UserId>, dedupe: bool, notified: seq<UserId>)
      returns (notified': seq<UserId>, ghost added: seq<UserId>)
      modifies this
      ensures comments == old(comments)
      ensures dedupe ==> notified' == AddOnce(notified, x, sender)
      ensures !dedupe ==> notified' == (if x.Some? && x.value != sender then notified + [x.value] else notified)
      ensures notified' == notified + added
      ensures notifications == old(notifications) + Notices(added, t.id, commentId)
    {
      notified' := notified;
      added := [];
      if x.Some? && x.value != sender && (!dedupe || x.value !in notified) {
        notifications := notifications + [Notification(x.value, t.id, commentId)];
        notified' := notified + [x.value];
        added := [x.value];
      }
    }

    /** The whole fan-out for the new comment `commentId`: the assignee loops,
        the parent's author, then the root's author, the last checked against
        the already-notified set only when `dedupeRoot` holds. */
    method FanOut(t: ActionLog, sender: UserId, commentId: nat,
                  parentAuthor: Option<UserId>, rootAuthor: Option<UserId>, dedupeRoot: bool)
      modifies this
      ensures comments == old(comments)
      ensures dedupeRoot ==>
        (notifications == old(notifications) + Notices(PostRecipients(t.assignees, sender, parentAuthor, rootAuthor), t.id, commentId))
      ensures !dedupeRoot ==>
        (notifications == old(notifications) + Notices(CreateRecipients(t.assignees, sender, parentAuthor, rootAuthor), t.id, commentId))
    {
      var n0 := NotifyAssigneeLoops(t, sender, commentId);
      var n1, a1 := NotifyOne(t, sender, commentId, parentAuthor, true, n0);
      var n2, a2 := NotifyOne(t, sender, commentId, rootAuthor, dedupeRoot, n1);
      NoticesAppend(n0, a1, t.id, commentId);
      NoticesAppend(n1, a2, t.id, commentId);
      assert notifications == old(notifications) + Notices(n2, t.id, commentId);
      assert dedupeRoot ==> n2 == PostRecipients(t.assignees, sender, parentAuthor, rootAuthor);
      assert !dedupeRoot ==> n2 == CreateRecipients(t.assignees, sender, parentAuthor, rootAuthor);
    }

    /** The POST branch of `ActionLogViewSet.comments`: `ticket` is the ticket
        with the requested id (None when there is none, a 404). Then the
        permission test (a role-less actor fails it with a server error), the
        parent lookup (an unknown parent id means no parent), the new comment
        (a missing text violates the column's NOT NULL and fails the request),
        and the fan-out. */
    method PostComment(ticket: Option<ActionLog>, actor: User, text: Option<string>, parentId: Option<nat>)
      returns (outcome: CommentOutcome)
      requires Valid()
      modifies this
      ensures Valid()
      ensures ticket.None? <==> outcome == NotFound
      ensures ticket.Some? && actor.role.None? ==> outcome == Failed
      ensures ticket.Some? && actor.role.Some? && !CanViewLog(ticket.value, actor) ==> outcome == Denied
      ensures ticket.Some? && actor.role.Some? && CanViewLog(ticket.value, actor) && text.None? ==> outcome == Failed
      ensures ticket.Some? && actor.role.Some? && CanViewLog(ticket.value, actor) && text.Some? ==> outcome.Posted?
      ensures !outcome.Posted? ==> comments == old(comments) && notifications == old(notifications)
      ensures outcome.Posted? ==>
        var t := ticket.value;
        var parent := if parentId.Some? && Exists(old(comments), parentId.value) then parentId else None;
        && ticket.Some? && actor.role.Some? && CanViewLog(t, actor) && text.Some?
        && outcome.id == |old(comments)| + 1
        && comments == old(comments) + [Comment(t.id, actor.id, text, None, false, false, parent)]
        && notifications == old(notifications) +
             Notices(PostRecipients(t.assignees, actor.id, AuthorOf(old(comments), parent), RootAuthorOf(old(comments), parent)),
                     t.id, outcome.id)
    {
      if ticket.None? {
        return NotFound;
      }
      var t := ticket.value;
      if actor.role.None? {
        return Failed;
      }
      if !CanViewLog(t, actor) {
        return Denied;
      }
      var parent: Option<nat> := None;
      if parentId.Some? && 1 <= parentId.value <= |comments| {
        parent := parentId;
      }
      if text.None? {
        return Failed;
      }
      ghost var cs := comments;
      var parentAuthor: Option<UserId> := None;
      var rootAuthor: Option<UserId> := None;
      if parent.Some? {
        parentAuthor := Some(comments[parent.value - 1].author);
        var root := RootOf(parent.value);
        rootAuthor := Some(comments[root - 1].author);
      }
      assert parentAuthor == AuthorOf(cs, parent) && rootAuthor == RootAuthorOf(cs, parent);
      AppendKeepsParentsEarlier(comments, Comment(t.id, actor.id, text, None, false, false, parent));
      comments := comments + [Comment(t.id, actor.id, text, None, false, false, parent)];
      var id := |comments|;
      FanOut(t, actor.id, id, parentAuthor, rootAuthor, true);
      outcome := Posted(id);
    }

    /** Creating a comment through `ActionLogCommentViewSet`: `t` is the ticket
        named in the request (None when no ticket has that id, which the
        serializer's `action_log` field refuses with a 400 before
        `perform_create` runs), `text` its `comment` (None when absent),
        `parentId` its `parent_comment_id`. The serializer's `comment` field
        is a required character field that refuses blank text and strips
        the text it keeps. It stores no parent link; the parent is looked up,
        after the save, only for notifications. There is no view permission
        test. */
    method PerformCreate(t: Option<ActionLog>, actor: User, text: Option<string>, parentId: Option<nat>)
      returns (outcome: CommentOutcome)
      requires Valid()
      modifies this
      ensures Valid()
      ensures outcome == Invalid <==> t.None? || text.None? || IsBlank(text.value)
      ensures outcome == Invalid ==> comments == old(comments) && notifications == old(notifications)
      ensures outcome != Invalid ==>
        var saved := old(comments) + [Comment(t.value.id, actor.id, Some(Strip(text.value)), None, false, false, None)];
        var parent := if parentId.Some? && Exists(saved, parentId.value) then parentId else None;
        && outcome == Posted(|saved|)
        && comments == saved
        && notifications == old(notifications) +
             Notices(CreateRecipients(t.value.assignees, actor.id, AuthorOf(saved, parent), RootAuthorOf(saved, parent)),
                     t.value.id, |saved|)
    {
      if t.None? || text.None? {
        return Invalid;
      }
      var body := Strip(text.value);
      StripMeaning(text.value);
      if body == [] {
        return Invalid;
      }
      var id := SaveAndNotify(t.value, actor, body, parentId);
      outcome := Posted(id);
    }

    /** `perform_create` once the serializer has accepted the request: the
        comment with the cleaned text `body` is saved, then the fan-out runs
        for it; `id` is the new comment's id. */
    method SaveAndNotify(log: ActionLog, actor: User, body: string, parentId: Option<nat>) returns (id: nat)
      requires Valid()
      modifies this
      ensures Valid()
      ensures
        var saved := old(comments) + [Comment(log.id, actor.id, Some(body), None, false, false, None)];
        var parent := if parentId.Some? && Exists(saved, parentId.value) then parentId else None;
        && id == |saved|
        && comments == saved
        && notifications == old(notifications) +
             Notices(CreateRecipients(log.assignees, actor.id, AuthorOf(saved, parent), RootAuthorOf(saved, parent)),
                     log.id, |saved|)
    {
      AppendKeepsParentsEarlier(comments, Comment(log.id, actor.id, Some(body), None, false, false, None));
      comments := comments + [Comment(log.id, actor.id, Some(body), None, false, false, None)];
      id := |comments|;
      var parentAuthor: Option<UserId> := None;
      var rootAuthor: Option<UserId> := None;
      if parentId.Some? && 1 <= parentId.value <= |comments| {
        parentAuthor := Some(comments[parentId.value - 1].author);
        var root := RootOf(parentId.value);
        rootAuthor := Some(comments[root - 1].author);
      }
      FanOut(log, actor.id, id, parentAuthor, rootAuthor, false);
    }

    /** The first update of `mark_comments_viewed`: every comment of ticket
        `logId` is marked viewed; `ids` are their ids. */
    method MarkOwnComments(logId: nat) returns (ids: set<nat>)
      modifies this
      ensures notifications == old(notifications)
      ensures |comments| == |old(comments)|
      ensures forall k :: 0 <= k < |comments| ==>
        comments[k] == (if old(comments)[k].logId == logId then old(comments)[k].(isViewed := true) else old(comments)[k])
      ensures forall x :: x in ids <==> 1 <= x <= |comments| && old(comments)[x - 1].logId == logId
    {
      ghost var before := comments;
      var n := |comments|;
      ids := {};
      var i := 0;
      while i < n
        invariant 0 <= i <= n && |comments| == n
        invariant forall k :: 0 <= k < i ==> comments[k] == (if before[k].logId == logId then before[k].(isViewed := true) else before[k])
        invariant forall k :: i <= k < n ==> comments[k] == before[k]
        invariant forall x :: x in ids <==> 1 <= x <= i && before[x - 1].logId == logId
        invariant notifications == old(notifications)
      {
        if comments[i].logId == logId {
          comments := comments[i := comments[i].(isViewed := true)];
          ids := ids + {i + 1};
        }
        i := i + 1;
      }
    }

    /** The second update: every comment whose parent is in `ids` (the ids of
        the comments of ticket `logId` in `before`) is marked viewed, which
        completes the marking of `before`. */
    method MarkReplies(ids: set<nat>, ghost before: seq<Comment>, logId: nat)
      requires |comments| == |before|
      requires forall k :: 0 <= k < |before| ==>
        comments[k] == (if before[k].logId == logId then before[k].(isViewed := true) else before[k])
      requires forall x :: x in ids <==> 1 <= x <= |before| && before[x - 1].logId == logId
      modifies this
      ensures notifications == old(notifications)
      ensures comments == MarkViewed(before, logId)
    {
      var n := |comments|;
      var i := 0;
      while i < n
        invariant 0 <= i <= n && |comments| == n
        invariant forall k :: 0 <= k < i ==> comments[k] == (if TouchedByMark(before, k, logId) then before[k].(isViewed := true) else before[k])
        invariant forall k :: i <= k < n ==> comments[k] == old(comments)[k]
        invariant notifications == old(notifications)
      {
        if comments[i].parent.Some? && comments[i].parent.value in ids {
          comments := comments[i := comments[i].(isViewed := true)];
        }
        i := i + 1;
      }
    }

    /** `mark_comments_viewed` for ticket `t` (None when it does not exist):
        after the permission test, the ticket's comments are marked viewed,
        then, when there were any, every comment whose parent is one of them. */
    method MarkCommentsViewed(t: Option<ActionLog>, actor: User) returns (outcome: CommentOutcome)
      requires Valid()
      modifies this
      ensures Valid()
      ensures notifications == old(notifications)
      ensures t.None? <==> outcome == NotFound
      ensures !outcome.Marked? ==> comments == old(comments)
      ensures t.Some? && actor.role.None? ==> outcome == Failed
      ensures t.Some? && actor.role.Some? && !CanViewLog(t.value, actor) ==> outcome == Denied
      ensures t.Some? && actor.role.Some? && CanViewLog(t.value, actor) ==>
        outcome == Marked(t.value.id) && comments == MarkViewed(old(comments), t.value.id)
    {
      if t.None? {
        return NotFound;
      }
      var log := t.value;
      if actor.role.None? {
        return Failed;
      }
      if !CanViewLog(log, actor) {
        return Denied;
      }
      ghost var before := comments;
      var ids := MarkOwnComments(log.id);
      if ids != {} {
        MarkReplies(ids, before, log.id);
      } else {
        forall k | 0 <= k < |before| ensures before[k].logId != log.id {
          assert k + 1 !in ids;
        }
        NoOwnCommentsNothingTouched(before, log.id);
      }
      MarkViewedSettles(before, log.id);
      outcome := Marked(log.id);
    }
  }
}

=== FILE: common.dfy ===
/** Shared value types and the small string operations the Python code relies on
    (`str.lower`, `in` on strings, `startswith`, `endswith`, `strip`). */
module Common {

  datatype Option<+T> = None | Some(value: T) {
    function GetOr(default: T): T {
      match this
      case Some(v) => v
      case None => default
    }
  }

  /** A field of a partial-update payload: absent from the request, or present
      with a value (which may itself be null, written as an inner Option). */
  datatype Field<+T> = Absent | Present(value: T)

  type UserId = nat
  type DeptId = nat
  type UnitId = nat

  /** Python `str.lower` restricted to ASCII letters. */
  function LowerChar(c: char): (r: char)
    ensures 'A' <= c <= 'Z' ==> 'a' <= r <= 'z' && r as int - c as int == 32
    ensures !('A' <= c <= 'Z') ==> r == c
  {
    if 'A' <= c <= 'Z' then (c as int + 32) as char else c
  }

  function Lower(s: string): (r: string)
    ensures |r| == |s|
    ensures forall i :: 0 <= i < |s| ==> r[i] == LowerChar(s[i])
  {
    if s == [] then [] else [LowerChar(s[0])] + Lower(s[1..])
  }

  /** `p in s` for Python strings: p occurs somewhere inside s. */
  predicate Contains(s: string, p: string) {
    exists i :: 0 <= i <= |s| && p <= s[i..]
  }

  predicate StartsWith(s: string, p: string) {
    p <= s
  }

  predicate EndsWith(s: string, p: string) {
    |p| <= |s| && s[|s| - |p|..] == p
  }

  lemma EqualImpliesContains(s: string, p: string)
    requires s == p
    ensures Contains(s, p)
  {
    assert p <= s[0..];
  }

  /** The characters Python's `str.strip()` removes (`str.isspace`): the ASCII
      whitespace and separators 9 to 13 and 28 to 32, and the Unicode spaces
      and line and paragraph separators. */
  predicate IsSpace(c: char) {
    var n := c as int;
    (9 <= n <= 13) || (28 <= n <= 32) || n == 0x85 || n == 0xA0 || n == 0x1680
    || (0x2000 <= n <= 0x200A) || n == 0x2028 || n == 0x2029 || n == 0x202F || n == 0x205F || n == 0x3000
  }

  /** `s.strip()` is empty exactly when every character is whitespace. */
  predicate IsBlank(s: string) {
    forall i :: 0 <= i < |s| ==> IsSpace(s[i])
  }

  /** `s.lstrip()`: the suffix of `s` after its leading whitespace. */
  function StripLeft(s: string): (r: string)
    ensures |r| <= |s| && r == s[|s| - |r|..]
    ensures forall i :: 0 <= i < |s| - |r| ==> IsSpace(s[i])
    ensures r == [] || !IsSpace(r[0])
  {
    if s != [] && IsSpace(s[0]) then StripLeft(s[1..]) else s
  }

  /** `s.rstrip()`: the prefix of `s` before its trailing whitespace. */
  function StripRight(s: string): (r: string)
    ensures |r| <= |s| && r == s[..|r|]
    ensures forall i :: |r| <= i < |s| ==> IsSpace(s[i])
    ensures r == [] || !IsSpace(r[|r| - 1])
  {
    if s != [] && IsSpace(s[|s| - 1]) then StripRight(s[..|s| - 1]) else s
  }

  /** `s.strip()`. */
  function Strip(s: string): string {
    StripRight(StripLeft(s))
  }

  /** Stripping leaves nothing exactly for a blank string; otherwise what is
      left is a piece of `s` that starts and ends with a non-space. */
  lemma StripMeaning(s: string)
    ensures Strip(s) == [] <==> IsBlank(s)
    ensures Strip(s) != [] ==> !IsSpace(Strip(s)[0]) && !IsSpace(Strip(s)[|Strip(s)| - 1])
    ensures exists i, j :: 0 <= i <= j <= |s| && Strip(s) == s[i..j]
  {
    var l := StripLeft(s);
    var r := StripRight(l);
    var i := |s| - |l|;
    assert r == l[..|r|] && l == s[i..];
    assert r == s[i..i + |r|];
    if r == [] {
      assert l == [];
    } else {
      assert r[0] == l[0];
    }
  }

  predicate IsDigit(c: char) {
    '0' <= c <= '9'
  }

  predicate AllDigits(s: string) {
    forall i :: 0 <= i < |s| ==> IsDigit(s[i])
  }
}

=== FILE: delegation_signals.dfy ===
/** The three expiry hooks of the users app: before a delegation is saved, when
    a delegation is loaded, and when a user logs in. Time is the parameter `now`. */
module DelegationSignals {
  import opened Common
  import opened Delegations
  import opened UserModels

  /** `check_delegation_expiration` (pre-save): the record as it will be written. */
  function OnSave(d: Delegation, now: int): (r: Delegation)
    ensures ExpiredAt(d, now) ==> !r.isActive
    ensures !ExpiredAt(d, now) ==> r == d
    ensures r.isActive ==> d.isActive
    ensures r.(isActive := d.isActive) == d
  {
    if d.expiresAt.Some? && now > d.expiresAt.value then d.(isActive := false) else d
  }

  /** `check_delegation_expiration_on_access` (post-init): the in-memory record
      after loading. It agrees with the pre-save rule on every record. */
  function OnAccess(d: Delegation, now: int): (r: Delegation)
    ensures r == OnSave(d, now)
  {
    if d.expiresAt.Some? && now > d.expiresAt.value && d.isActive then d.(isActive := false) else d
  }

  /** Reconciling a record that the hooks have already reconciled changes nothing. */
  lemma OnSaveIdempotent(d: Delegation, now: int)
    ensures OnSave(OnSave(d, now), now) == OnSave(d, now)
    ensures OnAccess(OnAccess(d, now), now) == OnAccess(d, now)
  {
  }

  /** Loading row `i`: the post-init hook deactivates an expired, active record
      both in memory and in the table; any other record is returned unchanged. */
  method LoadRow(table: DelegationTable, i: nat, now: int) returns (d: Delegation)
    requires i < |table.rows|
    modifies table
    ensures d == OnAccess(old(table.rows[i]), now)
    ensures table.rows == old(table.rows)[i := d]
  {
    d := table.rows[i];
    if d.expiresAt.Some? && now > d.expiresAt.value && d.isActive {
      d := d.(isActive := false);
      table.rows := table.rows[i := d];
    }
  }

  /** The grantor's department unit, read from a user-to-unit table in which a
      user without a unit has no entry. */
  function GrantorUnit(d: Delegation, unitOf: map<UserId, UnitId>): Option<UnitId> {
    if d.delegatedBy in unitOf then Some(unitOf[d.delegatedBy]) else None
  }

  /** The delegations the login sweep leaves inactive (among the active ones):
      granted by someone in `unit`, and either expired by the post-init hook
      when loaded or reported expired by `is_expired` on the loaded record. */
  function LoginSelection(unit: UnitId, unitOf: map<UserId, UnitId>, isExpired: Delegation -> bool, now: int): Delegation -> bool {
    (d: Delegation) => GrantorUnit(d, unitOf) == Some(unit) && (ExpiredAt(d, now) || isExpired(OnAccess(d, now)))
  }

  /** The delegations the login sweep counts: those whose loaded record
      `is_expired` reports as expired. */
  function LoginCounted(unit: UnitId, unitOf: map<UserId, UnitId>, isExpired: Delegation -> bool, now: int): Delegation -> bool {
    (d: Delegation) => GrantorUnit(d, unitOf) == Some(unit) && isExpired(OnAccess(d, now))
  }

  /** `check_user_delegations_on_login`: loads the active delegations granted in
      the user's unit (each load runs the post-init hook), then deactivates and
      saves each loaded record that `is_expired` reports as expired.
      `isExpired` stands for the `Delegation.is_expired` property at this
      instant. */
  method OnLogin(table: DelegationTable, user: User, unitOf: map<UserId, UnitId>,
                 isExpired: Delegation -> bool, now: int) returns (expiredCount: nat)
    modifies table
    ensures user.departmentUnit.None? ==> table.rows == old(table.rows) && expiredCount == 0
    ensures user.departmentUnit.Some? ==>
      var unit := user.departmentUnit.value;
      && table.rows == DeactivateWhere(old(table.rows), LoginSelection(unit, unitOf, isExpired, now))
      && expiredCount == CountWhere(old(table.rows), LoginCounted(unit, unitOf, isExpired, now))
  {
    expiredCount := 0;
    if user.departmentUnit.None? {
      return;
    }
    var unit := user.departmentUnit.value;
    ghost var sel := LoginSelection(unit, unitOf, isExpired, now);
    ghost var counted := LoginCounted(unit, unitOf, isExpired, now);
    ghost var before := table.rows;
    var n := |table.rows|;
    var i := 0;
    while i < n
      invariant 0 <= i <= n && |table.rows| == n
      invariant forall k :: 0 <= k < i ==> table.rows[k] == DeactivateIf(before[k], sel(before[k]))
      invariant forall k :: i <= k < n ==> table.rows[k] == before[k]
      invariant expiredCount == CountWhere(before[..i], counted)
    {
      assert before[..i + 1][..i] == before[..i];
      var counted := SweepRow(table, i, unit, unitOf, isExpired, now);
      if counted {
        expiredCount := expiredCount + 1;
      }
      i := i + 1;
    }
    assert before[..n] == before;
  }

  /** One row of the login sweep: an active delegation granted in `unit` is
      loaded, then deactivated and saved when the loaded record is expired. */
  method SweepRow(table: DelegationTable, i: nat, unit: UnitId, unitOf: map<UserId, UnitId>,
                  isExpired: Delegation -> bool, now: int) returns (counted: bool)
    requires i < |table.rows|
    modifies table
    ensures var d := old(table.rows)[i];
      table.rows == old(table.rows)[i := DeactivateIf(d, LoginSelection(unit, unitOf, isExpired, now)(d))]
    ensures var d := old(table.rows)[i];
      counted <==> d.isActive && LoginCounted(unit, unitOf, isExpired, now)(d)
  {
    counted := false;
    if table.rows[i].isActive && GrantorUnit(table.rows[i], unitOf) == Some(unit) {
      var d := LoadRow(table, i, now);
      if isExpired(d) {
        d := d.(isActive := false);
        table.rows := table.rows[i := OnSave(d, now)];
        counted := true;
      }
    }
  }

  /** A second login sweep straight after the first, with the same expiry
      verdicts, deactivates nothing and counts zero; no sweep ever activates a
      record, and records granted outside the unit are left as they were. */
  lemma LoginSweepSettles(rows: seq<Delegation>, unit: UnitId, unitOf: map<UserId, UnitId>,
                          isExpired: Delegation -> bool, now: int)
    ensures var sel := LoginSelection(unit, unitOf, isExpired, now);
      var once := DeactivateWhere(rows, sel);
      && DeactivateWhere(once, sel) == once
      && CountWhere(once, LoginCounted(unit, unitOf, isExpired, now)) == 0
      && (forall k :: 0 <= k < |rows| && once[k].isActive ==> rows[k].isActive)
      && (forall k :: 0 <= k < |rows| && GrantorUnit(rows[k], unitOf) != Some(unit) ==> once[k] == rows[k])
  {
    var sel := LoginSelection(unit, unitOf, isExpired, now);
    var counted := LoginCounted(unit, unitOf, isExpired, now);
    var once := DeactivateWhere(rows, sel);
    DeactivateWhereSettles(rows, sel);
    assert forall k :: 0 <= k < |once| ==> !(once[k].isActive && counted(once[k]));
    CountWhereZero(once, counted);
  }

  /** Every delegation of the unit that had expired by `now` is inactive after
      the sweep, whatever `is_expired` says: the post-init hook alone revokes it. */
  lemma LoginRevokesEveryExpired(rows: seq<Delegation>, unit: UnitId, unitOf: map<UserId, UnitId>,
                                 isExpired: Delegation -> bool, now: int, k: nat)
    requires k < |rows| && GrantorUnit(rows[k], unitOf) == Some(unit) && ExpiredAt(rows[k], now)
    ensures !DeactivateWhere(rows, LoginSelection(unit, unitOf, isExpired, now))[k].isActive
  {
  }

  /** The count the sweep reports never exceeds the number of delegations it
      revokes, and equals it when every delegation that had expired by `now`
      is also one `is_expired` reports on loading: the rows the post-init
      hook alone revokes are the only ones left uncounted. */
  lemma LoginCountBounded(rows: seq<Delegation>, unit: UnitId, unitOf: map<UserId, UnitId>,
                          isExpired: Delegation -> bool, now: int)
    ensures var after := DeactivateWhere(rows, LoginSelection(unit, unitOf, isExpired, now));
      CountWhere(rows, LoginCounted(unit, unitOf, isExpired, now)) <= Revoked(rows, after)
    ensures (forall k :: 0 <= k < |rows| && ExpiredAt(rows[k], now) ==> isExpired(OnAccess(rows[k], now))) ==>
      var after := DeactivateWhere(rows, LoginSelection(unit, unitOf, isExpired, now));
      CountWhere(rows, LoginCounted(unit, unitOf, isExpired, now)) == Revoked(rows, after)
  {
    var sel := LoginSelection(unit, unitOf, isExpired, now);
    var counted := LoginCounted(unit, unitOf, isExpired, now);
    RevokedIsCount(rows, sel);
    CountWhereMonotone(rows, counted, sel);
    if forall k :: 0 <= k < |rows| && ExpiredAt(rows[k], now) ==> isExpired(OnAccess(rows[k], now)) {
      CountWhereMonotone(rows, sel, counted);
    }
  }
}

=== FILE: delegations.dfy ===
/** The delegation table as the hooks and the revocation command see it. The
    Delegation model's own definition (its ordering, `is_expired`, its helper
    methods) is not part of this model; only the fields the hooks read and
    write appear here. */
module Delegations {
  import opened Common

  datatype Reason = Leave | Other

  datatype Delegation = Delegation(
    id: nat,
    delegatedBy: UserId,
    delegatedTo: UserId,
    reason: Reason,
    expiresAt: Option<int>,
    isActive: bool)

  /** `expires_at` is set and lies strictly before `now`. */
  predicate ExpiredAt(d: Delegation, now: int) {
    d.expiresAt.Some? && now > d.expiresAt.value
  }

  /** `user.delegations_received.filter(is_active=True).first()`: the first active
      delegation the user has received, in table order. */
  function FirstActiveReceived(rows: seq<Delegation>, user: UserId): (r: Option<Delegation>)
    ensures r.Some? ==> r.value in rows && r.value.isActive && r.value.delegatedTo == user
    ensures r.None? <==> forall k :: 0 <= k < |rows| ==> !(rows[k].isActive && rows[k].delegatedTo == user)
    ensures r.Some? ==> exists k :: (0 <= k < |rows| && rows[k] == r.value &&
                                     forall j :: 0 <= j < k ==> !(rows[j].isActive && rows[j].delegatedTo == user))
  {
    if rows == [] then None
    else if rows[0].isActive && rows[0].delegatedTo == user then Some(rows[0])
    else
      var rest := FirstActiveReceived(rows[1..], user);
      if rest.Some? then
        ghost var k :| 0 <= k < |rows[1..]| && rows[1..][k] == rest.value
          && forall j :: 0 <= j < k ==> !(rows[1..][j].isActive && rows[1..][j].delegatedTo == user);
        assert rows[k + 1] == rest.value;
        assert forall j :: 0 <= j < k + 1 ==> !(rows[j].isActive && rows[j].delegatedTo == user) by {
          forall j | 0 < j < k + 1 ensures !(rows[j].isActive && rows[j].delegatedTo == user) {
            assert rows[j] == rows[1..][j - 1];
          }
        }
        rest
      else
        assert forall k :: 1 <= k < |rows| ==> rows[k] == rows[1..][k - 1];
        rest
  }

  /** The reason of that first active received delegation, if there is one:
      what the approval workflow reads as "on leave". */
  function FirstActiveReceivedReason(rows: seq<Delegation>, user: UserId): Option<Reason> {
    var d := FirstActiveReceived(rows, user);
    if d.Some? then Some(d.value.reason) else None
  }

  /** One row after a bulk "active and selected becomes inactive" update. */
  function DeactivateIf(d: Delegation, selected: bool): (r: Delegation)
    ensures r.isActive <==> d.isActive && !selected
    ensures r.(isActive := d.isActive) == d
  {
    if d.isActive && selected then d.(isActive := false) else d
  }

  /** The table after every active row satisfying `sel` is made inactive. */
  function DeactivateWhere(rows: seq<Delegation>, sel: Delegation -> bool): (r: seq<Delegation>)
    ensures |r| == |rows|
    ensures forall k :: 0 <= k < |rows| ==> r[k] == DeactivateIf(rows[k], sel(rows[k]))
  {
    seq(|rows|, k requires 0 <= k < |rows| => DeactivateIf(rows[k], sel(rows[k])))
  }

  /** The number of active rows satisfying `sel`, counted from the front. */
  function CountWhere(rows: seq<Delegation>, sel: Delegation -> bool): nat {
    if rows == [] then 0
    else CountWhere(rows[..|rows| - 1], sel) + (if rows[|rows| - 1].isActive && sel(rows[|rows| - 1]) then 1 else 0)
  }

  /** The count is zero exactly when no active row is selected. */
  lemma {:induction false} CountWhereZero(rows: seq<Delegation>, sel: Delegation -> bool)
    ensures CountWhere(rows, sel) == 0 <==> forall k :: 0 <= k < |rows| ==> !(rows[k].isActive && sel(rows[k]))
  {
    if rows != [] {
      var init := rows[..|rows| - 1];
      CountWhereZero(init, sel);
      assert forall k :: 0 <= k < |init| ==> init[k] == rows[k];
    }
  }

  /** The count is at most the number of rows. */
  lemma {:induction false} CountWhereBound(rows: seq<Delegation>, sel: Delegation -> bool)
    ensures CountWhere(rows, sel) <= |rows|
  {
    if rows != [] {
      CountWhereBound(rows[..|rows| - 1], sel);
    }
  }

  /** Deactivation never activates a row, leaves unselected rows alone, and
      once applied leaves nothing for a second pass: the update is idempotent
      and a rerun counts zero. */
  lemma DeactivateWhereSettles(rows: seq<Delegation>, sel: Delegation -> bool)
    ensures forall k :: 0 <= k < |rows| && DeactivateWhere(rows, sel)[k].isActive ==> rows[k].isActive
    ensures forall k :: 0 <= k < |rows| && !sel(rows[k]) ==> DeactivateWhere(rows, sel)[k] == rows[k]
    ensures DeactivateWhere(DeactivateWhere(rows, sel), sel) == DeactivateWhere(rows, sel)
    ensures CountWhere(DeactivateWhere(rows, sel), sel) == 0
  {
    var once := DeactivateWhere(rows, sel);
    assert forall k :: 0 <= k < |once| ==> !(once[k].isActive && sel(once[k]));
    CountWhereZero(once, sel);
  }

  /** Selecting more active rows never counts fewer. */
  lemma {:induction false} CountWhereMonotone(rows: seq<Delegation>, a: Delegation -> bool, b: Delegation -> bool)
    requires forall k :: 0 <= k < |rows| && rows[k].isActive && a(rows[k]) ==> b(rows[k])
    ensures CountWhere(rows, a) <= CountWhere(rows, b)
  {
    if rows != [] {
      var init := rows[..|rows| - 1];
      assert forall k :: 0 <= k < |init| ==> init[k] == rows[k];
      CountWhereMonotone(init, a, b);
    }
  }

  /** The number of rows active in `before` and inactive in `after`. */
  function Revoked(before: seq<Delegation>, after: seq<Delegation>): nat
    requires |before| == |after|
  {
    if before == [] then 0
    else
      var n := |before| - 1;
      Revoked(before[..n], after[..n]) + (if before[n].isActive && !after[n].isActive then 1 else 0)
  }

  /** The bulk update revokes exactly the rows it counts. */
  lemma {:induction false} RevokedIsCount(rows: seq<Delegation>, sel: Delegation -> bool)
    ensures Revoked(rows, DeactivateWhere(rows, sel)) == CountWhere(rows, sel)
  {
    if rows != [] {
      var n := |rows| - 1;
      var init := rows[..n];
      assert DeactivateWhere(rows, sel)[..n] == DeactivateWhere(init, sel);
      RevokedIsCount(init, sel);
    }
  }

  /** With no active row selected, the bulk update changes nothing. */
  lemma NothingSelectedNothingChanged(rows: seq<Delegation>, sel: Delegation -> bool)
    requires CountWhere(rows, sel) == 0
    ensures DeactivateWhere(rows, sel) == rows
  {
    CountWhereZero(rows, sel);
  }

  /** The table of delegation records, updated in place by the hooks and the
      revocation command. */
  class DelegationTable {
    var rows: seq<Delegation>

    constructor (initial: seq<Delegation>)
      ensures rows == initial
    {
      rows := initial;
    }

    /** The bulk update `filter(...).update(is_active=False)` over the rows that
        `sel` selects, returning how many rows it changed. */
    method DeactivateSelected(sel: Delegation -> bool) returns (count: nat)
      modifies this
      ensures rows == DeactivateWhere(old(rows), sel)
      ensures count == CountWhere(old(rows), sel)
    {
      var n := |rows|;
      ghost var before := rows;
      var i := 0;
      count := 0;
      while i < n
        invariant 0 <= i <= n && |rows| == n
        invariant forall k :: 0 <= k < i ==> rows[k] == DeactivateIf(before[k], sel(before[k]))
        invariant forall k :: i <= k < n ==> rows[k] == before[k]
        invariant count == CountWhere(before[..i], sel)
      {
        assert before[..i + 1][..i] == before[..i];
        if rows[i].isActive && sel(rows[i]) {
          rows := rows[i := rows[i].(isActive := false)];
          count := count + 1;
        }
        i := i + 1;
      }
      assert before[..n] == before;
    }
  }
}

=== FILE: revoke_expired_delegations.dfy ===
/** The `revoke_expired_delegations` management command: a bulk sweep of the
    delegation table, with a dry-run switch. */
module RevokeExpiredDelegations {
  import opened Common
  import opened Delegations
  import opened DelegationSignals

  /** What the command reports: nothing to do, what a dry run would revoke, or
      how many it revoked. */
  datatype Report = NothingFound | DryRun(wouldRevoke: nat) | Revoked(count: nat)

  /** The filter `expires_at__lt=now` (as a lambda over a row; the command adds
      `is_active=True`). A null `expires_at` never compares below `now`. */
  function ExpiredBefore(now: int): Delegation -> bool {
    (d: Delegation) => d.expiresAt.Some? && d.expiresAt.value < now
  }

  /** The number of rows the command selects. */
  function ExpiredCount(rows: seq<Delegation>, now: int): nat {
    CountWhere(rows, ExpiredBefore(now))
  }

  /** `Command.handle(dry_run)`. Listing the selected rows loads each of them,
      and the post-init hook deactivates every one it loads, so a dry run
      revokes them too. The count the real run reports is the queryset's cached
      length; its bulk update then finds nothing left to change. */
  method Handle(table: DelegationTable, now: int, dryRun: bool) returns (report: Report)
    modifies table
    ensures table.rows == DeactivateWhere(old(table.rows), ExpiredBefore(now))
    ensures ExpiredCount(old(table.rows), now) == 0 ==> report == NothingFound
    ensures ExpiredCount(old(table.rows), now) > 0 && dryRun ==>
      report == DryRun(ExpiredCount(old(table.rows), now))
    ensures ExpiredCount(old(table.rows), now) > 0 && !dryRun ==>
      report == Revoked(ExpiredCount(old(table.rows), now))
  {
    var found := Selected(table.rows, now);
    if found == 0 {
      NothingSelectedNothingChanged(table.rows, ExpiredBefore(now));
      return NothingFound;
    }
    var listed := ListSelected(table, now);
    if dryRun {
      return DryRun(found);
    }
    ghost var afterListing := table.rows;
    var changed := table.DeactivateSelected(ExpiredBefore(now));
    DeactivateWhereSettles(old(table.rows), ExpiredBefore(now));
    assert table.rows == afterListing;
    report := Revoked(listed);
  }

  /** The listing loop of the command: each selected row is loaded, and the
      load's post-init hook deactivates it. Returns how many rows were listed. */
  method ListSelected(table: DelegationTable, now: int) returns (listed: nat)
    modifies table
    ensures table.rows == DeactivateWhere(old(table.rows), ExpiredBefore(now))
    ensures listed == ExpiredCount(old(table.rows), now)
  {
    ghost var sel := ExpiredBefore(now);
    ghost var before := table.rows;
    var n := |table.rows|;
    var i := 0;
    listed := 0;
    while i < n
      invariant 0 <= i <= n && |table.rows| == n
      invariant forall k :: 0 <= k < i ==> table.rows[k] == DeactivateIf(before[k], sel(before[k]))
      invariant forall k :: i <= k < n ==> table.rows[k] == before[k]
      invariant listed == CountWhere(before[..i], sel)
    {
      assert before[..i + 1][..i] == before[..i];
      var r := table.rows[i];
      if r.isActive && r.expiresAt.Some? && r.expiresAt.value < now {
        var d := LoadRow(table, i, now);
        listed := listed + 1;
      }
      i := i + 1;
    }
    assert before[..n] == before;
  }

  /** `expired_delegations.count()`: counts the selected rows without changing them. */
  method Selected(rows: seq<Delegation>, now: int) returns (count: nat)
    ensures count == ExpiredCount(rows, now)
  {
    count := 0;
    var i := 0;
    while i < |rows|
      invariant 0 <= i <= |rows|
      invariant count == ExpiredCount(rows[..i], now)
    {
      assert rows[..i + 1][..i] == rows[..i];
      if rows[i].isActive && rows[i].expiresAt.Some? && rows[i].expiresAt.value < now {
        count := count + 1;
      }
      i := i + 1;
    }
    assert rows[..i] == rows;
  }

  /** After a real run no active delegation has an expiry before `now`, rows
      without an expiry are untouched, no row was activated, and an immediate
      rerun finds nothing. */
  lemma RevokeLeavesNoExpired(rows: seq<Delegation>, now: int)
    ensures var after := DeactivateWhere(rows, ExpiredBefore(now));
      && (forall k :: 0 <= k < |after| && after[k].isActive ==> !(after[k].expiresAt.Some? && after[k].expiresAt.value < now))
      && (forall k :: 0 <= k < |rows| && rows[k].expiresAt.None? ==> after[k] == rows[k])
      && (forall k :: 0 <= k < |rows| && after[k].isActive ==> rows[k].isActive)
      && ExpiredCount(after, now) == 0
  {
    DeactivateWhereSettles(rows, ExpiredBefore(now));
  }

  /** The reported count is the number of rows the run deactivated: zero when
      nothing is selected, and never more than the table holds. */
  lemma ExpiredCountBounds(rows: seq<Delegation>, now: int)
    ensures ExpiredCount(rows, now) <= |rows|
    ensures ExpiredCount(rows, now) == 0 <==>
      forall k :: 0 <= k < |rows| ==> !(rows[k].isActive && rows[k].expiresAt.Some? && rows[k].expiresAt.value < now)
  {
    CountWhereBound(rows, ExpiredBefore(now));
    CountWhereZero(rows, ExpiredBefore(now));
  }
}

=== FILE: user_models.dfy ===
/** The `Role` and `User` records of the users app: role defaults, the role
    properties, `User.save` and the phone-number validator. */
module UserModels {
  import opened Common

  const ECONOMIST: string := "economist"
  const SENIOR_ECONOMIST: string := "senior_economist"
  const PRINCIPAL_ECONOMIST: string := "principal_economist"
  const ASSISTANT_COMMISSIONER: string := "assistant_commissioner"
  const COMMISSIONER: string := "commissioner"
  const SUPER_ADMIN: string := "super_admin"

  /** The six declared role names, in the order of the choice list. */
  const RoleNames: seq<string> :=
    [ECONOMIST, SENIOR_ECONOMIST, PRINCIPAL_ECONOMIST, ASSISTANT_COMMISSIONER, COMMISSIONER, SUPER_ADMIN]

  datatype Role = Role(
    name: string,
    canCreateLogs: bool,
    canUpdateStatus: bool,
    canApprove: bool,
    canViewAllLogs: bool,
    canConfigure: bool,
    canViewAllUsers: bool,
    canAssignToCommissioner: bool)

  /** What `set_password` leaves in the password column: nothing yet, or the
      hash of a secret. The raw secret is never a column value of its own. */
  datatype Credential = Unset | HashOf(secret: string)

  /** A user record. The last three fields stand for the delegation helpers of
      the User model (`can_approve_action_logs`, `has_ag_acpap_designation`,
      `has_leave_delegation_responsibilities`), whose bodies are not part of
      this model: they are inputs. `canApproveActionLogs` is None when the
      helper does not exist on the object. */
  datatype User = User(
    id: UserId,
    role: Option<Role>,
    department: Option<DeptId>,
    departmentUnit: Option<UnitId>,
    designation: Option<string>,
    phoneNumber: string,
    email: Option<string>,
    password: Credential,
    canApproveActionLogs: Option<bool>,
    hasAgAcpapDesignation: bool,
    hasLeaveDelegationResponsibilities: bool)

  /** A Role created with the field defaults: it may create logs and update
      status, and nothing else. */
  function NewRole(name: string): Role
  {
    Role(name, true, true, false, false, false, false, false)
  }

  /** `role.name`, with a missing role read as the empty name. */
  function RoleName(u: User): string {
    if u.role.Some? then u.role.value.name else ""
  }

  /** The `is_<role>` properties: the role's name equals the constant. */
  predicate HasRole(u: User, name: string) {
    u.role.Some? && u.role.value.name == name
  }

  predicate IsEconomist(u: User) { HasRole(u, ECONOMIST) }
  predicate IsSeniorEconomist(u: User) { HasRole(u, SENIOR_ECONOMIST) }
  predicate IsPrincipalEconomist(u: User) { HasRole(u, PRINCIPAL_ECONOMIST) }
  predicate IsAssistantCommissioner(u: User) { HasRole(u, ASSISTANT_COMMISSIONER) }
  predicate IsCommissioner(u: User) { HasRole(u, COMMISSIONER) }
  predicate IsSuperAdmin(u: User) { HasRole(u, SUPER_ADMIN) }

  /** At most one of the role properties holds of any user. */
  lemma AtMostOneRole(u: User, i: nat, j: nat)
    requires i < |RoleNames| && j < |RoleNames|
    requires HasRole(u, RoleNames[i]) && HasRole(u, RoleNames[j])
    ensures i == j
  {
  }

  /** The roles whose holders may not belong to a department unit. */
  predicate IsUnitlessRole(u: User) {
    u.role.Some? && (u.role.value.name == COMMISSIONER || u.role.value.name == ASSISTANT_COMMISSIONER)
  }

  /** `User.save`: the record as persisted. */
  function SaveUser(u: User): (r: User)
    ensures IsUnitlessRole(u) ==> r.departmentUnit.None?
    ensures !IsUnitlessRole(u) ==> r.departmentUnit == u.departmentUnit
    ensures r.(departmentUnit := u.departmentUnit) == u
  {
    if IsUnitlessRole(u) then u.(departmentUnit := None) else u
  }

  /** Saving twice persists the same record as saving once. */
  lemma SaveUserIdempotent(u: User)
    ensures SaveUser(SaveUser(u)) == SaveUser(u)
  {
  }

  const PHONE_MAX_LENGTH: nat := 17

  /** The digits part of `^\+?1?\d{9,15}$` after the optional `+`: either 9 to 15
      digits, or a leading `1` taken by `1?` followed by 9 to 15 digits. */
  predicate PhoneDigits(b: string) {
    AllDigits(b) && (9 <= |b| <= 15 || (|b| >= 10 && b[0] == '1' && |b| <= 16))
  }

  /** `\+?`, taken greedily: a leading `+` is consumed when there is one. */
  function AfterPlus(s: string): string {
    if StartsWith(s, "+") then s[1..] else s
  }

  /** `$`: the end of the string, or just before a final newline. */
  function BeforeNewline(a: string): string {
    if EndsWith(a, "\n") then a[..|a| - 1] else a
  }

  /** Python's `re.search` with `^\+?1?\d{9,15}$`, as a matcher. */
  predicate PhoneRegexMatches(s: string) {
    PhoneDigits(BeforeNewline(AfterPlus(s)))
  }

  function OptPlus(plus: bool): string { if plus then "+" else "" }
  function OptOne(one: bool): string { if one then "1" else "" }
  function OptNewline(nl: bool): string { if nl then "\n" else "" }

  /** One way the regular expression can split a string: an optional `+`, an
      optional `1`, 9 to 15 digits, and an optional newline before the end. */
  function PhoneShape(plus: bool, one: bool, digits: string, newline: bool): string {
    OptPlus(plus) + ((OptOne(one) + digits) + OptNewline(newline))
  }

  lemma AfterPlusOf(plus: bool, a: string)
    requires |a| > 0 && IsDigit(a[0])
    ensures AfterPlus(OptPlus(plus) + a) == a
  {
    if plus {
      assert StartsWith("+" + a, "+");
      assert ("+" + a)[1..] == a;
    } else {
      assert "" + a == a;
      assert a[0] != '+';
      assert !StartsWith(a, "+");
    }
  }

  lemma BeforeNewlineOf(b: string, nl: bool)
    requires |b| > 0 && IsDigit(b[|b| - 1])
    ensures BeforeNewline(b + OptNewline(nl)) == b
  {
    if nl {
      assert EndsWith(b + "\n", "\n");
      assert (b + "\n")[..|b|] == b;
    } else {
      assert b + "" == b;
      assert b[|b| - 1..] != "\n";
    }
  }

  lemma SplitAfterPlus(s: string)
    ensures s == OptPlus(StartsWith(s, "+")) + AfterPlus(s)
  {
    if StartsWith(s, "+") {
      assert s == [s[0]] + s[1..];
    }
  }

  lemma SplitBeforeNewline(a: string)
    ensures a == BeforeNewline(a) + OptNewline(EndsWith(a, "\n"))
  {
    if EndsWith(a, "\n") {
      assert a == a[..|a| - 1] + a[|a| - 1..];
    }
  }

  /** The digits part splits into an optional `1` and 9 to 15 digits. */
  lemma SplitDigits(b: string) returns (one: bool, d: string)
    requires PhoneDigits(b)
    ensures AllDigits(d) && 9 <= |d| <= 15 && b == OptOne(one) + d
  {
    one := !(9 <= |b| <= 15);
    d := if one then b[1..] else b;
    assert b == OptOne(one) + d;
    assert AllDigits(d) by {
      forall i | 0 <= i < |d| ensures IsDigit(d[i]) {
        assert d[i] == b[if one then i + 1 else i];
      }
    }
  }

  /** Every string the matcher accepts has such a split. */
  lemma PhoneMatcherSound(s: string)
    requires PhoneRegexMatches(s)
    ensures exists plus, one, d, nl :: AllDigits(d) && 9 <= |d| <= 15 && s == PhoneShape(plus, one, d, nl)
  {
    var plus := StartsWith(s, "+");
    var a := AfterPlus(s);
    SplitAfterPlus(s);
    var nl := EndsWith(a, "\n");
    var b := BeforeNewline(a);
    SplitBeforeNewline(a);
    var one, d := SplitDigits(b);
    assert s == PhoneShape(plus, one, d, nl);
  }

  /** Every string with such a split is accepted by the matcher. */
  lemma PhoneMatcherComplete(plus: bool, one: bool, d: string, nl: bool)
    requires AllDigits(d) && 9 <= |d| <= 15
    ensures PhoneRegexMatches(PhoneShape(plus, one, d, nl))
  {
    var b := OptOne(one) + d;
    assert AllDigits(b) by {
      forall i | 0 <= i < |b| ensures IsDigit(b[i]) {
        if one && i > 0 { assert b[i] == d[i - 1]; }
      }
    }
    var a := b + OptNewline(nl);
    assert a[0] == b[0];
    AfterPlusOf(plus, a);
    BeforeNewlineOf(b, nl);
  }

  /** The phone-number field: blank is allowed and skips validation; otherwise
      at most 17 characters and the regular expression must match. */
  predicate PhoneFieldValid(s: string) {
    s == "" || (|s| <= PHONE_MAX_LENGTH && PhoneRegexMatches(s))
  }

  /** Numbers the field accepts, among them one with a trailing newline. */
  lemma PhoneAcceptedExamples()
    ensures PhoneFieldValid("+256712345678")
    ensures PhoneFieldValid("0712345678")
    ensures PhoneRegexMatches("256712345678\n")
  {
    assert StartsWith("+256712345678", "+");
    assert "+256712345678"[1..] == "256712345678";
    assert !EndsWith("256712345678", "\n");
    assert "0712345678"[0] == '0';
    assert !StartsWith("0712345678", "+");
    assert !EndsWith("0712345678", "\n");
    assert "256712345678\n"[0] == '2';
    assert !StartsWith("256712345678\n", "+");
    assert EndsWith("256712345678\n", "\n");
    assert "256712345678\n"[..12] == "256712345678";
  }

  /** Numbers the field refuses: too few digits, and a letter among the digits. */
  lemma PhoneRefusedExamples()
    ensures !PhoneFieldValid("12345678")
    ensures !PhoneFieldValid("+25671234567a")
  {
    assert "12345678"[0] != '+';
    assert !StartsWith("12345678", "+");
    assert !EndsWith("12345678", "\n");
    assert StartsWith("+25671234567a", "+");
    assert "+25671234567a"[1..] == "25671234567a";
    assert !EndsWith("25671234567a", "\n");
    assert !IsDigit("25671234567a"[11]);
  }
}

=== FILE: user_permissions.dfy ===
/** The permission classes and `can_approve_action_log` of the users app: chains
    of conditionals over the requesting user's role and department. */
module Permissions {
  import opened Common
  import opened UserModels

  /** Who is making a request: nobody, an anonymous visitor, or a user. */
  datatype Principal = NoUser | Anonymous | Member(user: User)

  datatype HttpMethod = Get | Head | Options | Post | Put | Patch | Delete

  /** The methods that only read. */
  predicate IsSafe(m: HttpMethod) {
    m == Get || m == Head || m == Options
  }

  /** What a permission check does: grant, refuse (403), or raise because it
      read `role.name` of a user without a role (500). */
  datatype Decision = Grant | Refuse | Crash

  /** `IsSuperAdminOrReadOnly.has_permission`. */
  function SuperAdminOrReadOnly(m: HttpMethod, u: User): (d: Decision)
    ensures d == Grant <==> IsSafe(m) || IsSuperAdmin(u)
    ensures d == Crash <==> !IsSafe(m) && u.role.None?
  {
    if IsSafe(m) then Grant
    else if u.role.None? then Crash
    else if IsSuperAdmin(u) then Grant
    else Refuse
  }

  /** `IsDepartmentUser.has_object_permission` for an object in department `objDept`. */
  function DepartmentUser(u: User, objDept: Option<DeptId>): (d: Decision)
    ensures d == Grant <==> IsSuperAdmin(u) || (u.role.Some? && objDept == u.department)
    ensures d == Crash <==> u.role.None?
  {
    if u.role.None? then Crash
    else if IsSuperAdmin(u) then Grant
    else if objDept == u.department then Grant
    else Refuse
  }

  /** `CanManageUsers.has_permission`; the first property read on a user
      without a role raises. */
  function ManageUsers(m: HttpMethod, u: User): (d: Decision)
    ensures d == Grant <==> IsSafe(m) || IsSuperAdmin(u) || IsCommissioner(u) || IsAssistantCommissioner(u)
    ensures d == Crash <==> !IsSafe(m) && u.role.None?
  {
    if IsSafe(m) then Grant
    else if u.role.None? then Crash
    else if IsSuperAdmin(u) || IsCommissioner(u) || IsAssistantCommissioner(u) then Grant
    else Refuse
  }

  /** Reading never needs a role: both method-level checks grant every safe
      request, whoever makes it. */
  lemma SafeMethodsGrantedToAll(m: HttpMethod, u: User)
    requires IsSafe(m)
    ensures SuperAdminOrReadOnly(m, u) == Grant && ManageUsers(m, u) == Grant
  {
  }

  /** `CanManageUsers` is the weaker of the two method-level checks: it grants
      whatever `IsSuperAdminOrReadOnly` grants, and they crash on the same
      requests. */
  lemma ManageUsersExtendsSuperAdminOrReadOnly(m: HttpMethod, u: User)
    ensures SuperAdminOrReadOnly(m, u) == Grant ==> ManageUsers(m, u) == Grant
    ensures SuperAdminOrReadOnly(m, u) == Crash <==> ManageUsers(m, u) == Crash
  {
  }

  /** A user without a role cannot change anything through these checks: every
      unsafe request and every object check raises. */
  lemma RolelessUserCrashes(m: HttpMethod, u: User, objDept: Option<DeptId>)
    requires u.role.None? && !IsSafe(m)
    ensures SuperAdminOrReadOnly(m, u) == Crash
    ensures ManageUsers(m, u) == Crash
    ensures DepartmentUser(u, objDept) == Crash
  {
  }

  /** `can_approve_action_log(user, action_log)` for a log in department `logDept`.
      A user without a role has no `is_super_admin`/`is_commissioner` in the
      sense of `hasattr` (the property raises), so those branches are skipped. */
  function CanApproveActionLog(p: Principal, logDept: DeptId): (allowed: bool)
    ensures !p.Member? ==> !allowed
    ensures p.Member? && (IsSuperAdmin(p.user) || IsCommissioner(p.user)) ==> allowed
    ensures (p.Member? && !IsSuperAdmin(p.user) && !IsCommissioner(p.user) && p.user.canApproveActionLogs.Some?) ==>
      allowed == p.user.canApproveActionLogs.value
    ensures (p.Member? && !IsSuperAdmin(p.user) && !IsCommissioner(p.user) && p.user.canApproveActionLogs.None?) ==>
      (allowed <==> (p.user.role.Some? && p.user.role.value.canApprove)
                    || (p.user.department == Some(logDept) && IsAssistantCommissioner(p.user)))
  {
    match p
    case NoUser => false
    case Anonymous => false
    case Member(u) =>
      if IsSuperAdmin(u) then true
      else if IsCommissioner(u) then true
      else if u.canApproveActionLogs.Some? then u.canApproveActionLogs.value
      else if u.role.Some? && u.role.value.canApprove then true
      else if u.department == Some(logDept) && u.role.Some? && u.role.value.name == ASSISTANT_COMMISSIONER then true
      else false
  }

  /** The delegation-aware helper decides alone once it exists: the role and
      department fallbacks cannot change its answer. */
  lemma DelegationHelperOverridesRole(u: User, v: User, logDept: DeptId, otherDept: DeptId)
    requires !IsSuperAdmin(u) && !IsCommissioner(u) && u.canApproveActionLogs.Some?
    requires v == u.(department := Some(otherDept))
    ensures CanApproveActionLog(Member(u), logDept) == CanApproveActionLog(Member(v), otherDept)
    ensures CanApproveActionLog(Member(u), logDept) == u.canApproveActionLogs.value
  {
  }

  /** A role as created with its field defaults grants approval only by its
      name: a super admin or commissioner always, an assistant commissioner in
      their own department, anyone else never (when the delegation-aware
      helper is absent). */
  lemma DefaultRoleApprovesByNameOnly(u: User, name: string, logDept: DeptId)
    requires u.role == Some(NewRole(name)) && u.canApproveActionLogs.None?
    ensures CanApproveActionLog(Member(u), logDept) <==>
      name == SUPER_ADMIN || name == COMMISSIONER || (name == ASSISTANT_COMMISSIONER && u.department == Some(logDept))
  {
  }
}

=== FILE: user_serializers.dfy ===
/** `UserSerializer` of the users app: what a write request can reach, the
    department-unit rule in `validate`, the email default in the rendering,
    and password handling in `create` and `update`. */
module UserSerializers {
  import opened Common
  import opened UserModels

  /** A user write request (or validated data): each field absent or present;
      the unit and the designation may be present and null. */
  datatype UserInput = UserInput(
    email: Field<string>,
    departmentUnit: Field<Option<UnitId>>,
    designation: Field<Option<string>>,
    phoneNumber: Field<string>,
    role: Field<Role>,
    password: Field<string>)

  /** The validated data the serializer builds from a request: `role` is a
      read-only field and `password` is not among the declared fields, so
      neither ever reaches the validated data; the other fields pass through. */
  function Deserialize(input: UserInput): (data: UserInput)
    ensures data.role.Absent? && data.password.Absent?
    ensures data.(role := input.role, password := input.password) == input
  {
    input.(role := Absent, password := Absent)
  }

  /** `UserSerializer.validate`: when updating a commissioner or assistant
      commissioner, the department unit is forced to null, whatever the
      request supplied; otherwise the data is returned as it came. */
  function Validate(instance: Option<User>, data: UserInput): (r: UserInput)
    ensures instance.Some? && IsUnitlessRole(instance.value) ==> r.departmentUnit == Present(None)
    ensures r.(departmentUnit := data.departmentUnit) == data
    ensures !(instance.Some? && IsUnitlessRole(instance.value)) ==> r == data
  {
    if instance.Some? && IsUnitlessRole(instance.value) then data.(departmentUnit := Present(None)) else data
  }

  /** Validating validated data changes nothing more. */
  lemma ValidateIdempotent(instance: Option<User>, data: UserInput)
    ensures Validate(instance, Validate(instance, data)) == Validate(instance, data)
  {
  }

  /** `UserSerializer.to_representation` for `email`: missing or empty renders as ''. */
  function RenderEmail(email: Option<string>): (r: string)
    ensures email.None? ==> r == ""
    ensures email.Some? ==> r == email.value
  {
    if email.None? || email.value == "" then "" else email.value
  }

  /** The stored email is kept as is on rendering; only a missing one becomes ''. */
  lemma RenderEmailKeepsStored(e: string)
    ensures RenderEmail(Some(e)) == e
    ensures RenderEmail(None) == RenderEmail(Some(""))
  {
  }

  /** The non-password fields of the data written onto a user record. */
  function ApplyFields(u: User, data: UserInput): (r: User)
    ensures r.id == u.id && r.department == u.department && r.password == u.password
    ensures data.departmentUnit.Present? ==> r.departmentUnit == data.departmentUnit.value
    ensures data.departmentUnit.Absent? ==> r.departmentUnit == u.departmentUnit
    ensures data.role.Present? ==> r.role == Some(data.role.value)
    ensures data.role.Absent? ==> r.role == u.role
    ensures r.email == (if data.email.Present? then Some(data.email.value) else u.email)
    ensures data.designation.Present? ==> r.designation == data.designation.value
    ensures data.designation.Absent? ==> r.designation == u.designation
    ensures data.phoneNumber.Present? ==> r.phoneNumber == data.phoneNumber.value
    ensures data.phoneNumber.Absent? ==> r.phoneNumber == u.phoneNumber
    ensures r.(email := u.email, departmentUnit := u.departmentUnit, designation := u.designation,
               phoneNumber := u.phoneNumber, role := u.role) == u
  {
    u.(email := if data.email.Present? then Some(data.email.value) else u.email,
       departmentUnit := if data.departmentUnit.Present? then data.departmentUnit.value else u.departmentUnit,
       designation := if data.designation.Present? then data.designation.value else u.designation,
       phoneNumber := if data.phoneNumber.Present? then data.phoneNumber.value else u.phoneNumber,
       role := if data.role.Present? then Some(data.role.value) else u.role)
  }

  /** `set_password` when a non-empty password was given; nothing otherwise. */
  function WithPassword(u: User, password: Field<string>): (r: User)
    ensures password.Present? && password.value != "" ==> r == u.(password := HashOf(password.value))
    ensures !(password.Present? && password.value != "") ==> r == u
  {
    if password.Present? && password.value != "" then u.(password := HashOf(password.value)) else u
  }

  /** A user record with nothing set but its id. */
  function BlankUser(id: UserId): User {
    User(id, None, None, None, None, "", None, Unset, None, false, false)
  }

  /** `UserSerializer.create`: the record saved from the validated data. */
  function CreateUser(id: UserId, data: UserInput): (r: User)
    ensures r.id == id
    ensures data.password.Present? && data.password.value != "" ==> r.password == HashOf(data.password.value)
    ensures !(data.password.Present? && data.password.value != "") ==> r.password == Unset
    ensures IsUnitlessRole(r) ==> r.departmentUnit.None?
    ensures !IsUnitlessRole(r) && data.departmentUnit.Present? ==> r.departmentUnit == data.departmentUnit.value
    ensures !IsUnitlessRole(r) && data.departmentUnit.Absent? ==> r.departmentUnit.None?
    ensures r.email == (if data.email.Present? then Some(data.email.value) else None)
    ensures r.designation == (if data.designation.Present? then data.designation.value else None)
    ensures r.phoneNumber == (if data.phoneNumber.Present? then data.phoneNumber.value else "")
    ensures r.role == (if data.role.Present? then Some(data.role.value) else None)
    ensures r.department.None?
  {
    SaveUser(WithPassword(ApplyFields(BlankUser(id), data), data.password))
  }

  /** `UserSerializer.update`: the record saved over `instance`. */
  function UpdateUser(instance: User, data: UserInput): (r: User)
    ensures r.id == instance.id
    ensures data.password.Present? && data.password.value != "" ==> r.password == HashOf(data.password.value)
    ensures !(data.password.Present? && data.password.value != "") ==> r.password == instance.password
    ensures IsUnitlessRole(r) ==> r.departmentUnit.None?
    ensures data.role.Absent? ==> r.role == instance.role
    ensures data.role.Present? ==> r.role == Some(data.role.value)
    ensures !IsUnitlessRole(r) && data.departmentUnit.Present? ==> r.departmentUnit == data.departmentUnit.value
    ensures !IsUnitlessRole(r) && data.departmentUnit.Absent? ==> r.departmentUnit == instance.departmentUnit
    ensures data.email.Present? ==> r.email == Some(data.email.value)
    ensures data.email.Absent? ==> r.email == instance.email
    ensures data.designation.Present? ==> r.designation == data.designation.value
    ensures data.designation.Absent? ==> r.designation == instance.designation
    ensures data.phoneNumber.Present? ==> r.phoneNumber == data.phoneNumber.value
    ensures data.phoneNumber.Absent? ==> r.phoneNumber == instance.phoneNumber
    ensures r.department == instance.department
    ensures r.canApproveActionLogs == instance.canApproveActionLogs
  {
    SaveUser(WithPassword(ApplyFields(instance, data), data.password))
  }

  /** Through this serializer a request never changes a password: create
      leaves it unset and update keeps the stored one. */
  lemma RequestNeverSetsPassword(id: UserId, instance: User, input: UserInput)
    ensures CreateUser(id, Validate(None, Deserialize(input))).password == Unset
    ensures UpdateUser(instance, Validate(Some(instance), Deserialize(input))).password == instance.password
  {
  }

  /** Updating a commissioner or assistant commissioner always leaves them
      without a unit, even when the request names one. */
  lemma UnitlessRoleStaysUnitless(instance: User, input: UserInput)
    requires IsUnitlessRole(instance)
    ensures UpdateUser(instance, Validate(Some(instance), Deserialize(input))).departmentUnit.None?
  {
  }
}

=== FILE: user_views.dfy ===
/** `UserViewSet`: role-based visibility of users, the commissioner-assignment
    guard on create and update, and the department listings. The user table
    is a sequence of records. */
module UserViews {
  import opened Common
  import opened UserModels
  import opened UserSerializers

  /** The users of `users` that `keep` selects, in order. */
  function Where(users: seq<User>, keep: User -> bool): (r: seq<User>)
    ensures |r| <= |users|
    ensures forall u :: u in r <==> u in users && keep(u)
  {
    if users == [] then []
    else (if keep(users[0]) then [users[0]] else []) + Where(users[1..], keep)
  }

  /** The `department` and `department_unit` query filters, each applied only when given. */
  function QueryFiltered(all: seq<User>, dept: Option<DeptId>, unit: Option<UnitId>): seq<User> {
    var byDept := if dept.Some? then Where(all, (u: User) => u.department == Some(dept.value)) else all;
    if unit.Some? then Where(byDept, (u: User) => u.departmentUnit == Some(unit.value)) else byDept
  }

  /** The actor sees every user: a super admin or a role with `can_view_all_users`. */
  predicate SeesAll(actor: User) {
    IsSuperAdmin(actor) || (actor.role.Some? && actor.role.value.canViewAllUsers)
  }

  /** `UserViewSet.get_queryset` over the user table `all`. */
  function VisibleUsers(actor: User, all: seq<User>, dept: Option<DeptId>, unit: Option<UnitId>): (r: seq<User>)
    ensures forall u :: u in r ==> u in all
    ensures forall u :: u in r ==> (dept.Some? ==> u.department == Some(dept.value)) && (unit.Some? ==> u.departmentUnit == Some(unit.value))
    ensures SeesAll(actor) ==> forall u :: u in r <==>
      (u in all && (dept.Some? ==> u.department == Some(dept.value)) && (unit.Some? ==> u.departmentUnit == Some(unit.value)))
    ensures !SeesAll(actor) && actor.departmentUnit.Some? ==> forall u :: u in r ==> u.departmentUnit == actor.departmentUnit
    ensures !SeesAll(actor) && actor.departmentUnit.None? ==> forall u :: u in r ==> u.department == actor.department
    ensures !SeesAll(actor) ==> forall u :: u in r <==>
      (u in QueryFiltered(all, dept, unit) &&
       if actor.departmentUnit.Some? then u.departmentUnit == actor.departmentUnit else u.department == actor.department)
  {
    var q := QueryFiltered(all, dept, unit);
    if IsSuperAdmin(actor) then q
    else if actor.role.Some? && actor.role.value.canViewAllUsers then q
    else if actor.departmentUnit.Some? then Where(q, (u: User) => u.departmentUnit == actor.departmentUnit)
    else Where(q, (u: User) => u.department == actor.department)
  }

  /** Narrowing the query never shows more: the view with a filter is part of the view without it. */
  lemma FiltersOnlyNarrow(actor: User, all: seq<User>, dept: DeptId, unit: Option<UnitId>)
    ensures forall u :: u in VisibleUsers(actor, all, Some(dept), unit) ==> u in VisibleUsers(actor, all, None, unit)
  {
  }

  /** Whether the actor may give the `commissioner` role. */
  predicate MayAssignCommissioner(actor: User) {
    actor.role.Some? && actor.role.value.canAssignToCommissioner
  }

  /** The guard of `perform_create` and `perform_update` over validated data. */
  function RoleGuard(actor: User, data: UserInput): (allowed: bool)
    ensures allowed <==> !(data.role.Present? && data.role.value.name == COMMISSIONER) || MayAssignCommissioner(actor)
  {
    if data.role.Present? && data.role.value.name == COMMISSIONER then MayAssignCommissioner(actor) else true
  }

  datatype SaveOutcome = PermissionDenied | SavedUser(user: User)

  /** `UserViewSet.perform_create` for a request from `actor`, creating user `id`. */
  function PerformCreate(actor: User, id: UserId, input: UserInput): (r: SaveOutcome)
    ensures r.PermissionDenied? <==> !RoleGuard(actor, Validate(None, Deserialize(input)))
    ensures r.SavedUser? ==> r.user == CreateUser(id, Validate(None, Deserialize(input)))
  {
    var data := Validate(None, Deserialize(input));
    if !RoleGuard(actor, data) then PermissionDenied else SavedUser(CreateUser(id, data))
  }

  /** `UserViewSet.perform_update` of `instance` for a request from `actor`. */
  function PerformUpdate(actor: User, instance: User, input: UserInput): (r: SaveOutcome)
    ensures r.PermissionDenied? <==> !RoleGuard(actor, Validate(Some(instance), Deserialize(input)))
    ensures r.SavedUser? ==> r.user == UpdateUser(instance, Validate(Some(instance), Deserialize(input)))
  {
    var data := Validate(Some(instance), Deserialize(input));
    if !RoleGuard(actor, data) then PermissionDenied else SavedUser(UpdateUser(instance, data))
  }

  /** Since `role` never reaches the validated data, the guard never refuses
      and no request changes a user's role through these actions. */
  lemma GuardNeverFires(actor: User, id: UserId, instance: User, input: UserInput)
    ensures PerformCreate(actor, id, input).SavedUser?
    ensures PerformCreate(actor, id, input).user.role.None?
    ensures PerformUpdate(actor, instance, input).SavedUser?
    ensures PerformUpdate(actor, instance, input).user.role == instance.role
  {
  }

  /** The guard itself refuses exactly a commissioner role from an actor without the permission. */
  lemma GuardRefusesCommissioner(actor: User, data: UserInput, r: Role)
    requires data.role == Present(r) && r.name == COMMISSIONER && !MayAssignCommissioner(actor)
    ensures !RoleGuard(actor, data)
  {
  }

  datatype Listing = NoDepartment | NoUnit | Listed(users: seq<User>)

  /** `department_users`: an error without a department, else everyone in it. */
  function DepartmentUsers(actor: User, all: seq<User>): (r: Listing)
    ensures r == NoDepartment <==> actor.department.None?
    ensures r.Listed? ==> forall u :: u in r.users <==> u in all && u.department == actor.department
    ensures !r.NoUnit?
  {
    if actor.department.None? then NoDepartment
    else Listed(Where(all, (u: User) => u.department == actor.department))
  }

  /** `department_unit_users`: an error without a unit, else everyone in it. */
  function DepartmentUnitUsers(actor: User, all: seq<User>): (r: Listing)
    ensures r == NoUnit <==> actor.departmentUnit.None?
    ensures r.Listed? ==> forall u :: u in r.users <==> u in all && u.departmentUnit == actor.departmentUnit
    ensures !r.NoDepartment?
  {
    if actor.departmentUnit.None? then NoUnit
    else Listed(Where(all, (u: User) => u.departmentUnit == actor.departmentUnit))
  }
}
